=== FILE: README.md ===
# Sales dashboard: cleaning, city ranking and dominant products

A Dafny model of the analysis core of a Streamlit sales dashboard
(`dashboard/main.py`). The dashboard works on a merged e-commerce order
table. It does three things:

1. `clean_and_merge_data` cleans the table:
   - keeps delivered orders;
   - normalises the city and product-category text;
   - fills missing numbers with column medians;
   - projects to the kept columns;
   - drops rows still missing a city, category or payment;
   - drops repeated (order, product, customer) rows, keeping the first.
2. It ranks cities by total payment. It adds each city's percentage of all
   payments and the cumulative percentage, and picks the *dominant city*.
   The dominant city is the first ranked city at or above the city
   threshold, or the top-ranked city when none qualifies.
3. It ranks the product categories sold in the dominant city the same way
   and lists those at or above the product threshold.

Modules:

- `Wrappers`: `Option` and `Result`.
- `Text`: `str.lower`, `str.title`, and the city and category rewrites.
- `Rows`: input and output rows, the de-duplication key, `drop_duplicates`.
- `Cleaning`: `clean_and_merge_data` stage by stage.
- `Aggregation`: `groupby(...).sum()`, totals, and the descending sort.
- `Contribution`: percentages with float64 division by zero, `cumsum`,
  the threshold filter, and the dominant-key rule.
- `Dashboard`: the city analysis, the product analysis and the whole run.
- `Examples`: small worked tables.

Payments are exact reals. A percentage is a `Percent`: finite, +inf, -inf
or NaN, as float64 division gives when the whole is zero.

A notable consequence is proved. When payments are non-negative, the
threshold never changes the dominant city: it is always the top-ranked
city (`Dashboard.DominantCityIsTopCity`). This fails for a negative
whole (`Contribution.NegativeWholeCanSkipTop`).

## Model

| member | source | states |
|---|---|---|
| Text.ToLower | dashboard/main.py:55 | a lower-case or uncased character is kept; an upper-case one becomes the lower-case letter 0x20 above it |
| Text.Lower | dashboard/main.py:55 | `str.lower()` over the modelled letters: every position is lower-cased on its own, so the length is kept |
| Text.TitleCase | dashboard/main.py:55 | `str.title()`: a cased character right after a cased character is lower-cased, every other cased character is upper-cased, uncased ones are kept |
| Text.TitleCaseIdempotent | dashboard/main.py:55 | title-casing a title-cased string changes nothing |
| Text.TitleCaseOfLower | dashboard/main.py:55 | the `.str.lower().str.title()` chain gives the same as `.str.title()` alone |
| Text.TitleCaseOfTitled | dashboard/main.py:55 | a string that lower-cases like a title-cased `t` title-cases to `t` |
| Text.NormalizeCity | dashboard/main.py:53-59 | the city becomes "São Paulo" exactly when its title case is "Sao Paulo" (or already "São Paulo"); it becomes "Rio de Janeiro" exactly when its title case is "Rio De Janeiro"; it is never left as either uncorrected form; otherwise it is the title-cased lower-cased input |
| Text.NormalizeCityIdempotent | dashboard/main.py:53-59 | normalising an already normalised city changes nothing |
| Text.NormalizeCityIgnoresCase | dashboard/main.py:55 | the city rule gives the same result for any letter case of the input |
| Text.ReplaceUnderscores | dashboard/main.py:65 | every underscore becomes a space and every other character is kept, so no underscore is left |
| Text.NormalizeCategory | dashboard/main.py:63-65 | the category is title-cased after its underscores become spaces; so underscores become spaces, other uncased characters are kept, and cased letters only change case |
| Text.NormalizeCategoryIdempotent | dashboard/main.py:63-65 | normalising an already normalised category changes nothing |
| Text.CityExample | dashboard/main.py:55-57 | "sao paulo" becomes "São Paulo" |
| Text.CategoryExample | dashboard/main.py:65 | "home_appliances" becomes "Home Appliances" |
| Rows.DropDuplicates | dashboard/main.py:95 | the result's keys are unique and are the same set as the input's; it is no longer than the input |
| Rows.DedupOrigins | dashboard/main.py:95 | the kept rows are exactly the first occurrence of each key, in input order (`keep='first'`) |
| Rows.DropDuplicatesOfUnique | dashboard/main.py:95 | a table whose keys are already unique is left unchanged |
| Rows.DropDuplicatesIdempotent | dashboard/main.py:95 | de-duplicating twice gives the same as de-duplicating once |
| Cleaning.KeepDelivered | dashboard/main.py:48 | every kept row is delivered; every delivered row is kept; the result is a sub-multiset of the input |
| Cleaning.NormalizeRow | dashboard/main.py:53-81 | see the NormalizeRow list below this table |
| Cleaning.ToRecord | dashboard/main.py:83-93 | a record exists iff city, category and payment are all present; it carries every kept column of the row unchanged |
| Cleaning.DropMissing | dashboard/main.py:91-93 | the result is no longer than the input; every record is the projection of some complete row; every complete row's projection is kept; the order is given by `Cleaning.StagedEqualsRowwise` |
| Cleaning.PrepareRow | dashboard/main.py:48-93 | a row survives stages 1-3 iff it is delivered, has a city, and has a payment or a payment median; its key is kept, its city is the normalised city, its category the normalised category or "Unknown Category", and its payment the value or else the median |
| Cleaning.StagedEqualsRowwise | dashboard/main.py:48-93 | the three whole-table passes give the same rows, in order, as preparing each row on its own |
| Cleaning.CandidateOrigins | dashboard/main.py:48-93 | the surviving rows are, in order, what the surviving input positions prepare to, and every surviving position is listed |
| Cleaning.CleanAndMerge | dashboard/main.py:33-97 | the cleaned table has unique (order, product, customer) keys and is no longer than the input |
| Cleaning.CleanIsDedupOfCandidates | dashboard/main.py:93-95 | the cleaned table is `drop_duplicates` of the row-by-row preparation |
| Cleaning.CleanOrigins | dashboard/main.py:33-97 | each cleaned row is what an input row prepares to; the positions increase; no earlier surviving input row has the same key |
| Cleaning.CleanedRowsAreDelivered | dashboard/main.py:48 | every cleaned row comes from a delivered input row |
| Cleaning.CleanKeepsEveryKey | dashboard/main.py:93-95 | the key of every row that survives stages 1-3 is in the cleaned table: only duplicates are lost |
| Cleaning.CategoryNeverDropsARow | dashboard/main.py:67 | a missing category never drops a row; it becomes "Unknown Category" |
| Aggregation.GroupSum | dashboard/main.py:134 | one group per key that occurs; keys distinct; each total is the sum of that key's amounts |
| Aggregation.GroupSumPreservesTotal | dashboard/main.py:134-137 | the group totals add up to the sum of all amounts |
| Aggregation.Insert | dashboard/main.py:135 | inserting into a non-increasing sequence adds exactly that group and keeps the order non-increasing |
| Aggregation.SortDescending | dashboard/main.py:135 | the result is a non-increasing permutation of the groups |
| Aggregation.TotalOfPermutation | dashboard/main.py:135-137 | reordering groups keeps their total |
| Aggregation.RankingKeepsGrouping | dashboard/main.py:134-135 | any ranking of a grouping is still a grouping, with the same total |
| Contribution.Percentage | dashboard/main.py:139 | non-zero whole: finite, with `p * whole == part * 100`; zero whole: +inf, -inf or NaN by the sign of the part |
| Contribution.Shares | dashboard/main.py:139 | row by row, key and total are kept and the percentage of the whole is added |
| Contribution.CumulativeSum | dashboard/main.py:167 | the length is kept; a NaN entry shows NaN; a non-NaN first entry is 0 plus its value; a non-NaN entry that follows a non-NaN entry is the previous entry plus its own value, with IEEE addition; the skipping across NaNs is `Contribution.CumulativeSkipsNaN` |
| Contribution.CumulativeSkipsNaN | dashboard/main.py:167 | `cumsum` with `skipna=True`: a non-NaN entry with only NaNs before it is 0 plus its value, and any other non-NaN entry is the last non-NaN entry before it plus its own value, whatever NaNs lie in between |
| Contribution.CumulativeContribution | dashboard/main.py:167 | the cumulative column has one entry per ranked share; a NaN percentage shows NaN; a non-NaN percentage that follows a non-NaN one is added to the previous entry |
| Contribution.CumulativeContributionSkipsNaN | dashboard/main.py:167 | the same skipping rule over the shares' percentages: each non-NaN entry adds its percentage to the last non-NaN entry before it, or to 0 when there is none |
| Contribution.CumulativeIsPrefixShare | dashboard/main.py:167 | with a non-zero whole, cumulative entry `i` is the total of the first `i + 1` groups as a percentage of the whole |
| Contribution.PercentagesSumToHundred | dashboard/main.py:137-139 | when the whole is the groups' non-zero total, the percentages add up to 100 |
| Contribution.CumulativeEndsAtHundred | dashboard/main.py:167 | the last cumulative entry is then exactly 100 |
| Contribution.CumulativeNonDecreasing | dashboard/main.py:167 | with non-negative totals and a positive whole, the cumulative column never decreases |
| Contribution.FirstMeeting | dashboard/main.py:144-147 | the position of the first share at or above the threshold, or none when no share qualifies |
| Contribution.MeetingThreshold | dashboard/main.py:144 | every kept share meets the threshold and comes from the table; every share that meets it is kept; order and single occurrence are given by `Contribution.MeetingOrigins` |
| Contribution.MeetingOrigins | dashboard/main.py:144 | the filtered table is the ranked table's qualifying rows, each exactly once, at strictly increasing positions, so in ranked order (the boolean mask) |
| Contribution.AtLeastOrder | dashboard/main.py:144 | the `>=` comparison of a percentage with a threshold: a NaN percentage meets no threshold, +inf meets every one, -inf none, a finite one iff its value is at least the threshold, and meeting a threshold implies meeting every lower one |
| Contribution.MeetingStartsAtFirst | dashboard/main.py:144-147 | the filtered table is non-empty iff some share qualifies, and it starts with the first such share |
| Contribution.DominantKey | dashboard/main.py:146-153 | none iff the table is empty; otherwise the key of the first qualifying share, or the top share's key when none qualifies |
| Contribution.DominantIsTop | dashboard/main.py:139-153 | for a non-increasing table and a non-negative whole, the dominant key is the top key whatever the threshold |
| Contribution.NegativeWholeCanSkipTop | dashboard/main.py:139-147 | with a negative whole, a lower-ranked key can be the dominant one |
| Dashboard.CityEntries | dashboard/main.py:134 | one (city, payment) pair per cleaned row |
| Dashboard.Analyse | dashboard/main.py:134-144 | see the Analyse list below this table |
| Dashboard.AnalysisSumsToHundred | dashboard/main.py:137-167 | with a non-zero whole, the percentages add up to 100 and the cumulative column ends at 100 |
| Dashboard.AnalysisCumulativeNonDecreasing | dashboard/main.py:167 | with non-negative payments and a positive total, the cumulative column is finite and never decreases |
| Dashboard.CityRows | dashboard/main.py:182 | every selected row has the city; every row with the city is selected; the selection is a sub-multiset of the table |
| Dashboard.CityRowsOrigins | dashboard/main.py:182 | the boolean mask keeps every row of the city exactly once, at strictly increasing positions, so in table order |
| Dashboard.CategoryTotalInCity | dashboard/main.py:182-189 | a category's total in the city's product table is the sum of the payments of exactly the table's rows with that city and that category |
| Dashboard.CityRowsTotal | dashboard/main.py:182-190 | the payments of the city's rows add up to what the city table credits to the city |
| Dashboard.AnalyseProducts | dashboard/main.py:182-200 | see the AnalyseProducts list below this table |
| Dashboard.Run | dashboard/main.py:101-206 | the run fails iff the cleaned table is empty (the `iloc[0]` fallback raises); otherwise the dominant city is the city of some cleaned row, the cumulative column is that of the ranked cities, and the product analysis is that of the dominant city |
| Dashboard.CityCategoriesRanked | dashboard/main.py:182-189 | every category sold in the city is ranked in the city's product table |
| Dashboard.DominantCityHasRows | dashboard/main.py:146-185 | there is a dominant city iff the table is non-empty, and that city always has rows, so the branch at 184-185 is never taken |
| Dashboard.RunPicksDominantCity | dashboard/main.py:146-153 | a run's dominant city is the first ranked city at or above the city threshold, or the top-ranked city |
| Dashboard.RunReportsCities | dashboard/main.py:134-189 | a successful run reports the city analysis of the cleaned table, its dominant key, the cumulative column of the ranked cities, and the product analysis of the dominant city at the product threshold |
| Dashboard.DominantCityIsTopCity | dashboard/main.py:134-153 | with non-negative payments, the dominant city of a non-empty table is its top-ranked city |
| Dashboard.RunDominantCityIsTop | dashboard/main.py:134-153 | the same for a whole run: the city threshold never changes the dominant city |
| Examples.ThreeCitiesRanked | dashboard/main.py:134-139 | cities with sales 600, 300 and 100 rank A, B, C at 60%, 30% and 10% |
| Examples.CityExampleAtFifty | dashboard/main.py:144-148 | at a 50% threshold only A qualifies, and A is dominant |
| Examples.CityExampleAtSeventy | dashboard/main.py:144-153 | at a 70% threshold no city qualifies, and the fallback picks A |
| Examples.ProductExample | dashboard/main.py:187-206 | categories with sales 80 and 20: at 75% only the first qualifies; at 85% none does |

`Cleaning.NormalizeRow` states that, after the rewrite:
- the category is always present;
- a present category is `Text.NormalizeCategory` of the input, and a missing one becomes "Unknown Category";
- the city is present iff it was, and a present city is `Text.NormalizeCity` of the input;
- the payment, price, freight value and review score are the input value when present and otherwise the column median;
- the payment is missing iff both the value and its median are missing;
- the key, the status, the state, the seller and the purchase timestamp are unchanged.

`Dashboard.Analyse` states that:
- the whole is the sum of all amounts;
- the ranked table has distinct keys and non-increasing totals;
- each key's total is its sum, and its percentage is taken of the whole;
- every key that occurs is ranked;
- the filtered rows are exactly the ranked shares at or above the threshold;
- the filtered table is `Contribution.MeetingThreshold` of the ranked table, so it keeps ranked order and each row once (`Contribution.MeetingOrigins`).

`Dashboard.AnalyseProducts` states that:
- "no data" is reported iff no row has the city;
- otherwise the whole is the city's total;
- the ranked table has distinct categories and non-increasing totals;
- each category's total is its sum over the city's rows, which is the sum over the table's rows with that city and category (`Dashboard.CityCategoryTotal`), and its percentage is taken of the city's total;
- every category sold in the city is ranked;
- the listed categories are exactly the ranked ones at or above the product threshold;
- they are listed once each, in ranked order (`Contribution.MeetingThreshold`, `Contribution.MeetingOrigins`).

## Left out

- Loading the CSV file (`load_data`) and its error reporting are I/O. The model starts from a sequence of rows.
- The date coercion at lines 44-46 is left out. No date column takes part in the cleaning decisions or the analysis. The kept timestamp is carried as an opaque optional string.
- Median computation: the medians at line 79 are a parameter (`Imputation`). Computing a median needs floating-point order statistics over the delivered rows. A column with no values has no median, which is `None`.
- The `'missing'` fill for non-numeric columns (line 81) is left out. Every column the model keeps and imputes is numeric.
- Missing columns (the `in df.columns` guards) are left out. The model takes a merged table that has every column it reads. Dropping absent columns from the projection at line 91 is not modelled.
- Whole-column types are outside the row model. pandas reads a column with no non-empty cell as float64. If `product_category_name` is such a column, `.str.replace` at line 65 raises an AttributeError; the model instead gives every row "Unknown Category" and the run can succeed. If `customer_city` is such a column, line 55 raises; the model drops every row at stage 3 and the run fails with the empty-table error instead.
- Columns that are only imputed and then projected away (product dimensions and name lengths) are left out.
- Text.Lower: lower-cases only the ASCII and Latin-1 letters, one character to one character. Python's `str.lower` also lower-cases Greek, Cyrillic and the other Unicode letters, which the model keeps, and can change the length: `"İ".lower()` has two code points.
- Text.TitleCase: only ASCII and Latin-1 letters are cased. Python's `str.title` uses the full Unicode tables. "ß" and "ÿ", whose upper case lies outside Latin-1, are treated as uncased. So are "µ" (U+00B5), "ª" (U+00AA) and "º" (U+00BA), which Python treats as cased: for example `"µm".title()` is "Μm" with a capital Greek Mu, while the model gives "µM".
- Floating point: payments, sums and percentages are exact reals. Rounding in float64 sums and divisions is not modelled. Division by zero is modelled with IEEE results.
- Aggregation.GroupSum: groups come out in order of first appearance, whereas pandas sorts the group keys. Only the order of ties after the descending sort can differ.
- Aggregation.SortDescending: this is one ranking (insertion sort). pandas' default sort is not stable and may order equal totals differently. Every contract of `Dashboard.Analyse` holds for any non-increasing permutation (`IsRanking`).
- Thresholds are unconstrained reals. The widget limits of 0.01 to 100 (lines 106-122) are UI input bounds.
- The Streamlit layout, the tables, the messages at lines 148-153 and 203-206, the `head(10)` views and the plots are presentation only. The model reports the data they show: the ranked tables, the filtered tables, the cumulative column and the dominant city.
- Cleaning.CleanAndMerge: running the whole cleaner a second time on its own output is not modelled as idempotent. The output no longer has `order_status`, so the source would fail on line 48 with a missing column. Instead the model proves idempotence of each step that can be repeated: `Text.NormalizeCityIdempotent`, `Text.NormalizeCategoryIdempotent` and `Rows.DropDuplicatesIdempotent`.
- Caching (`st.cache_data`) does not change results and is left out.

=== FILE: aggregation.dfy ===
/** pandas `groupby(key)[value].sum()` and `sort_values(ascending=False)`
    over (key, amount) pairs: the computation the dashboard runs once per
    city and once per product category. */
module Aggregation {
  import opened Wrappers

  /** One row reduced to its grouping key and its payment. */
  datatype Entry = Entry(key: string, amount: real)

  /** One row of a grouped table: a key and the sum of its amounts. */
  datatype Group = Group(key: string, total: real)

  /** The sum of all amounts (`Series.sum()`; 0 for no rows). */
  function Sum(es: seq<Entry>): real {
    if es == [] then 0.0 else Sum(es[..|es| - 1]) + es[|es| - 1].amount
  }

  /** The sum of the amounts whose key is `key`. */
  function SumFor(es: seq<Entry>, key: string): real {
    if es == [] then 0.0
    else SumFor(es[..|es| - 1], key) + (if es[|es| - 1].key == key then es[|es| - 1].amount else 0.0)
  }

  predicate HasEntry(es: seq<Entry>, key: string) {
    exists i :: 0 <= i < |es| && es[i].key == key
  }

  /** The sum of all group totals. */
  function Total(gs: seq<Group>): real {
    if gs == [] then 0.0 else Total(gs[..|gs| - 1]) + gs[|gs| - 1].total
  }

  predicate HasKey(gs: seq<Group>, key: string) {
    exists i :: 0 <= i < |gs| && gs[i].key == key
  }

  predicate DistinctKeys(gs: seq<Group>) {
    forall i, j :: 0 <= i < j < |gs| ==> gs[i].key != gs[j].key
  }

  /** A grouping of `es`: one group per key, each holding that key's sum. */
  ghost predicate IsGrouping(es: seq<Entry>, gs: seq<Group>) {
    && DistinctKeys(gs)
    && (forall key :: HasKey(gs, key) <==> HasEntry(es, key))
    && (forall i :: 0 <= i < |gs| ==> gs[i].total == SumFor(es, gs[i].key))
  }

  /** Where `key` sits in `gs`, if anywhere. */
  function IndexOf(gs: seq<Group>, key: string): (r: Option<nat>)
    ensures r.Some? ==> r.value < |gs| && gs[r.value].key == key
    ensures r.None? <==> !HasKey(gs, key)
  {
    if gs == [] then None
    else if gs[|gs| - 1].key == key then Some(|gs| - 1)
    else
      var r := IndexOf(gs[..|gs| - 1], key);
      assert forall i :: 0 <= i < |gs| - 1 ==> gs[..|gs| - 1][i] == gs[i];
      r
  }

  /** Adds `amount` to the group of `key`, opening a new last group when
      there is none yet. */
  function Credit(gs: seq<Group>, key: string, amount: real): seq<Group> {
    match IndexOf(gs, key)
    case Some(p) => gs[p := Group(key, gs[p].total + amount)]
    case None => gs + [Group(key, amount)]
  }

  /** A key that occurs in no entry sums to zero. */
  lemma {:induction false} SumForAbsent(es: seq<Entry>, key: string)
    requires !HasEntry(es, key)
    ensures SumFor(es, key) == 0.0
  {
    if es != [] {
      var prefix := es[..|es| - 1];
      assert forall i :: 0 <= i < |prefix| ==> prefix[i] == es[i];
      SumForAbsent(prefix, key);
    }
  }

  /** A key occurs in `es` when it occurs before the last entry or is the
      last entry's key. */
  lemma HasEntryLast(es: seq<Entry>, key: string)
    requires es != []
    ensures HasEntry(es, key) <==> HasEntry(es[..|es| - 1], key) || es[|es| - 1].key == key
  {
    var prefix := es[..|es| - 1];
    if HasEntry(prefix, key) {
      var i :| 0 <= i < |prefix| && prefix[i].key == key;
      assert es[i].key == key;
    }
    if HasEntry(es, key) && es[|es| - 1].key != key {
      var i :| 0 <= i < |es| && es[i].key == key;
      assert i < |prefix|;
      assert prefix[i].key == key;
    }
  }

  /** Crediting the last entry to a grouping of the entries before it
      gives a grouping of all of them. */
  lemma CreditStep(es: seq<Entry>, gs: seq<Group>)
    requires es != [] && IsGrouping(es[..|es| - 1], gs)
    ensures IsGrouping(es, Credit(gs, es[|es| - 1].key, es[|es| - 1].amount))
  {
    match IndexOf(gs, es[|es| - 1].key)
    case Some(p) => CreditExisting(es, gs, p);
    case None => CreditNew(es, gs);
  }

  lemma CreditExisting(es: seq<Entry>, gs: seq<Group>, p: nat)
    requires es != [] && IsGrouping(es[..|es| - 1], gs)
    requires p < |gs| && gs[p].key == es[|es| - 1].key
    ensures IsGrouping(es, gs[p := Group(gs[p].key, gs[p].total + es[|es| - 1].amount)])
  {
    var prefix, e := es[..|es| - 1], es[|es| - 1];
    var r := gs[p := Group(gs[p].key, gs[p].total + e.amount)];
    assert forall i :: 0 <= i < |r| ==> r[i].key == gs[i].key;
    forall i | 0 <= i < |r|
      ensures r[i].total == SumFor(es, r[i].key)
    {
      if i != p {
        assert gs[i].key != e.key;
      }
    }
    CreditKeys(gs, p, e.amount);
    forall key
      ensures HasKey(r, key) <==> HasEntry(es, key)
    {
      HasEntryLast(es, key);
      if key == e.key {
        assert HasKey(gs, key);
      }
    }
  }

  lemma CreditNew(es: seq<Entry>, gs: seq<Group>)
    requires es != [] && IsGrouping(es[..|es| - 1], gs)
    requires !HasKey(gs, es[|es| - 1].key)
    ensures IsGrouping(es, gs + [Group(es[|es| - 1].key, es[|es| - 1].amount)])
  {
    var prefix, e := es[..|es| - 1], es[|es| - 1];
    var g := Group(e.key, e.amount);
    var r := gs + [g];
    SumForAbsent(prefix, e.key);
    forall i | 0 <= i < |gs|
      ensures gs[i].key != e.key && r[i] == gs[i]
    {
      assert HasKey(gs, gs[i].key);
    }
    forall i | 0 <= i < |r|
      ensures r[i].total == SumFor(es, r[i].key)
    {
    }
    AppendKeys(gs, g);
    forall key
      ensures HasKey(r, key) <==> HasEntry(es, key)
    {
      HasEntryLast(es, key);
    }
  }

  /** Updating the total at `p` keeps the keys. */
  lemma CreditKeys(gs: seq<Group>, p: nat, amount: real)
    requires p < |gs|
    ensures forall key :: HasKey(gs[p := Group(gs[p].key, gs[p].total + amount)], key) <==> HasKey(gs, key)
  {
    var r := gs[p := Group(gs[p].key, gs[p].total + amount)];
    forall key
      ensures HasKey(r, key) <==> HasKey(gs, key)
    {
      if HasKey(r, key) {
        var i :| 0 <= i < |r| && r[i].key == key;
        assert gs[i].key == key;
      }
      if HasKey(gs, key) {
        var i :| 0 <= i < |gs| && gs[i].key == key;
        assert r[i].key == key;
      }
    }
  }

  /** Appending a group adds its key. */
  lemma AppendKeys(gs: seq<Group>, g: Group)
    ensures forall key :: HasKey(gs + [g], key) <==> HasKey(gs, key) || key == g.key
  {
    var r := gs + [g];
    forall key
      ensures HasKey(r, key) <==> HasKey(gs, key) || key == g.key
    {
      if HasKey(r, key) && key != g.key {
        var i :| 0 <= i < |r| && r[i].key == key;
        assert gs[i].key == key;
      }
      if HasKey(gs, key) {
        var i :| 0 <= i < |gs| && gs[i].key == key;
        assert r[i].key == key;
      }
      if key == g.key {
        assert r[|gs|].key == key;
      }
    }
  }

  /** `groupby(key)[amount].sum()`: groups in order of first appearance. */
  function GroupSum(es: seq<Entry>): (r: seq<Group>)
    ensures IsGrouping(es, r)
  {
    if es == [] then []
    else
      var prefix, last := es[..|es| - 1], es[|es| - 1];
      CreditStep(es, GroupSum(prefix));
      Credit(GroupSum(prefix), last.key, last.amount)
  }

  lemma {:induction false} TotalUpdate(gs: seq<Group>, p: nat, g: Group)
    requires p < |gs|
    ensures Total(gs[p := g]) == Total(gs) - gs[p].total + g.total
  {
    var prefix := gs[..|gs| - 1];
    if p < |gs| - 1 {
      assert gs[p := g][..|gs| - 1] == prefix[p := g];
      TotalUpdate(prefix, p, g);
    } else {
      assert gs[p := g][..|gs| - 1] == prefix;
    }
  }

  lemma TotalAppendOne(gs: seq<Group>, g: Group)
    ensures Total(gs + [g]) == Total(gs) + g.total
  {
    assert (gs + [g])[..|gs|] == gs;
  }

  /** Crediting an amount raises the total by that amount. */
  lemma TotalCredit(gs: seq<Group>, key: string, amount: real)
    ensures Total(Credit(gs, key, amount)) == Total(gs) + amount
  {
    match IndexOf(gs, key)
    case Some(p) =>
      TotalUpdate(gs, p, Group(key, gs[p].total + amount));
    case None =>
      TotalAppendOne(gs, Group(key, amount));
  }

  /** Grouping loses and invents no money: the group totals add up to the
      sum of all amounts. */
  lemma {:induction false} GroupSumPreservesTotal(es: seq<Entry>)
    ensures Total(GroupSum(es)) == Sum(es)
  {
    if es != [] {
      var prefix, last := es[..|es| - 1], es[|es| - 1];
      var gs := GroupSum(prefix);
      GroupSumPreservesTotal(prefix);
      TotalCredit(gs, last.key, last.amount);
      assert GroupSum(es) == Credit(gs, last.key, last.amount);
    }
  }

  lemma {:induction false} TotalAppend(a: seq<Group>, b: seq<Group>)
    ensures Total(a + b) == Total(a) + Total(b)
  {
    if b != [] {
      assert (a + b)[..|a + b| - 1] == a + b[..|b| - 1];
      TotalAppend(a, b[..|b| - 1]);
    } else {
      assert a + b == a;
    }
  }

  /** Reordering the groups does not change their total. */
  lemma {:induction false} TotalOfPermutation(a: seq<Group>, b: seq<Group>)
    requires multiset(a) == multiset(b)
    ensures Total(a) == Total(b)
  {
    if a != [] {
      var x := a[|a| - 1];
      assert a == a[..|a| - 1] + [x];
      assert x in multiset(b);
      var j :| 0 <= j < |b| && b[j] == x;
      var rest := b[..j] + b[j + 1..];
      assert b == b[..j] + [x] + b[j + 1..];
      assert multiset(b) == multiset(b[..j]) + multiset{x} + multiset(b[j + 1..]);
      assert multiset(a) == multiset(a[..|a| - 1]) + multiset{x};
      assert multiset(rest) == multiset(b[..j]) + multiset(b[j + 1..]);
      assert multiset(rest) == multiset(b) - multiset{x};
      assert multiset(a[..|a| - 1]) == multiset(a) - multiset{x};
      TotalOfPermutation(a[..|a| - 1], rest);
      TotalAppend(b[..j] + [x], b[j + 1..]);
      TotalAppend(b[..j], [x]);
      TotalAppend(b[..j], b[j + 1..]);
      TotalAppendOne(a[..|a| - 1], x);
      assert Total([x]) == x.total;
    }
  }

  predicate NonIncreasing(gs: seq<Group>) {
    forall i, j :: 0 <= i < j < |gs| ==> gs[i].total >= gs[j].total
  }

  /** `gs` ranked by `sort_values(ascending=False)`. The sort is not stable,
      so any non-increasing reordering is a correct outcome. */
  ghost predicate IsRanking(gs: seq<Group>, ranked: seq<Group>) {
    multiset(ranked) == multiset(gs) && NonIncreasing(ranked)
  }

  /** Inserts `g` into a non-increasing sequence, before the first group
      whose total it reaches. */
  function Insert(g: Group, sorted: seq<Group>): (r: seq<Group>)
    requires NonIncreasing(sorted)
    ensures multiset(r) == multiset(sorted) + multiset{g}
    ensures NonIncreasing(r)
    ensures r != [] && (r[0] == g || (sorted != [] && r[0] == sorted[0]))
  {
    if sorted == [] then [g]
    else if g.total >= sorted[0].total then
      ConsKeepsOrder(g, sorted);
      [g] + sorted
    else
      var tail := Insert(g, sorted[1..]);
      assert sorted == [sorted[0]] + sorted[1..];
      ConsKeepsOrder(sorted[0], tail);
      [sorted[0]] + tail
  }

  /** A group at least as large as the head of a non-increasing sequence
      can go in front of it. */
  lemma ConsKeepsOrder(x: Group, s: seq<Group>)
    requires NonIncreasing(s) && s != [] && x.total >= s[0].total
    ensures NonIncreasing([x] + s)
  {
    forall i, j | 0 <= i < j < |s| + 1
      ensures ([x] + s)[i].total >= ([x] + s)[j].total
    {
      if i > 0 {
        assert ([x] + s)[i] == s[i - 1];
      }
    }
  }

  /** One ranking of `gs`: insertion sort, descending by total. */
  function SortDescending(gs: seq<Group>): (r: seq<Group>)
    ensures IsRanking(gs, r)
  {
    if gs == [] then []
    else
      assert gs == [gs[0]] + gs[1..];
      Insert(gs[0], SortDescending(gs[1..]))
  }

  /** A ranking keeps the grouping: same keys, same totals, same sum. */
  lemma RankingKeepsGrouping(es: seq<Entry>, gs: seq<Group>, ranked: seq<Group>)
    requires IsGrouping(es, gs) && IsRanking(gs, ranked)
    ensures IsGrouping(es, ranked)
    ensures Total(ranked) == Total(gs)
  {
    forall i, j | 0 <= i < j < |ranked|
      ensures ranked[i].key != ranked[j].key
    {
      RankedKeysDistinct(gs, ranked, i, j);
    }
    forall key | HasEntry(es, key)
      ensures HasKey(ranked, key)
    {
      var j :| 0 <= j < |gs| && gs[j].key == key;
      assert gs[j] in multiset(ranked);
      var i :| 0 <= i < |ranked| && ranked[i] == gs[j];
    }
    forall i | 0 <= i < |ranked|
      ensures ranked[i].total == SumFor(es, ranked[i].key) && HasEntry(es, ranked[i].key)
    {
      assert ranked[i] in multiset(gs);
      var j :| 0 <= j < |gs| && gs[j] == ranked[i];
      assert HasKey(gs, gs[j].key);
    }
    TotalOfPermutation(ranked, gs);
  }

  /** Two positions of a ranking hold different keys. */
  lemma RankedKeysDistinct(gs: seq<Group>, ranked: seq<Group>, i: nat, j: nat)
    requires DistinctKeys(gs) && multiset(ranked) == multiset(gs)
    requires i < j < |ranked|
    ensures ranked[i].key != ranked[j].key
  {
    if ranked[i].key == ranked[j].key {
      assert ranked[i] in multiset(gs) && ranked[j] in multiset(gs);
      var a :| 0 <= a < |gs| && gs[a] == ranked[i];
      var b :| 0 <= b < |gs| && gs[b] == ranked[j];
      assert a == b;
      // the same group twice in `ranked` would occur twice in `gs`
      assert ranked == ranked[..j] + [ranked[j]] + ranked[j + 1..];
      assert ranked[..j] == ranked[..i] + [ranked[i]] + ranked[i + 1..j];
      assert multiset(ranked)[gs[a]] >= 2;
      DistinctCountsOne(gs, a);
    }
  }

  /** In a sequence with distinct keys every element occurs once. */
  lemma {:induction false} DistinctCountsOne(gs: seq<Group>, a: nat)
    requires DistinctKeys(gs) && a < |gs|
    ensures multiset(gs)[gs[a]] == 1
  {
    var prefix, last := gs[..|gs| - 1], gs[|gs| - 1];
    assert gs == prefix + [last];
    if a == |gs| - 1 {
      assert gs[a] !in prefix;
    } else {
      assert prefix[a] == gs[a];
      DistinctCountsOne(prefix, a);
      assert last != gs[a];
    }
  }
}

=== FILE: cleaning.dfy ===
/** `clean_and_merge_data`: keep delivered orders, normalise the city and
    category text, fill missing numbers with the column medians, project to
    the kept columns, drop rows still missing a city, category or payment,
    and drop repeated (order, product, customer) rows keeping the first. */
module Cleaning {
  import opened Wrappers
  import opened Text
  import opened Rows

  const Delivered := "delivered"

  predicate IsDelivered(row: RawRow) {
    row.orderStatus == Some(Delivered)
  }

  // ---------------------------------------------------------------------
  // Stage 1: keep delivered orders

  function KeepDelivered(raw: seq<RawRow>): (kept: seq<RawRow>)
    ensures forall i :: 0 <= i < |kept| ==> IsDelivered(kept[i])
    ensures forall i :: 0 <= i < |raw| && IsDelivered(raw[i]) ==> raw[i] in kept
    ensures multiset(kept) <= multiset(raw)
  {
    if raw == [] then []
    else
      var last := raw[|raw| - 1];
      assert raw == raw[..|raw| - 1] + [last];
      KeepDelivered(raw[..|raw| - 1]) + (if IsDelivered(last) then [last] else [])
  }

  // ---------------------------------------------------------------------
  // Stage 2: text normalisation and median imputation

  function FillMissing(v: Option<real>, median: Option<real>): Option<real> {
    if v.Some? then v else median
  }

  function NormalizeRow(row: RawRow, medians: Imputation): (r: RawRow)
    ensures r.productCategoryName.Some?
    ensures row.productCategoryName.None? ==> r.productCategoryName == Some(UnknownCategory)
    ensures r.customerCity.Some? <==> row.customerCity.Some?
    ensures r.paymentValue.None? <==> row.paymentValue.None? && medians.paymentValue.None?
    ensures row.paymentValue.Some? ==> r.paymentValue == row.paymentValue
    ensures r.orderId == row.orderId && r.customerId == row.customerId && r.productId == row.productId
    ensures r.orderStatus == row.orderStatus
    ensures row.customerCity.Some? ==> r.customerCity == Some(NormalizeCity(row.customerCity.value))
    ensures row.productCategoryName.Some? ==>
      r.productCategoryName == Some(NormalizeCategory(row.productCategoryName.value))
    ensures r.paymentValue == FillMissing(row.paymentValue, medians.paymentValue)
    ensures r.price == FillMissing(row.price, medians.price)
    ensures r.freightValue == FillMissing(row.freightValue, medians.freightValue)
    ensures r.reviewScore == FillMissing(row.reviewScore, medians.reviewScore)
    ensures r.customerState == row.customerState && r.sellerId == row.sellerId
    ensures r.orderPurchaseTimestamp == row.orderPurchaseTimestamp
  {
    row.(
      customerCity :=
        if row.customerCity.Some? then Some(NormalizeCity(row.customerCity.value)) else None,
      productCategoryName :=
        if row.productCategoryName.Some? then Some(NormalizeCategory(row.productCategoryName.value))
        else Some(UnknownCategory),
      price := FillMissing(row.price, medians.price),
      freightValue := FillMissing(row.freightValue, medians.freightValue),
      paymentValue := FillMissing(row.paymentValue, medians.paymentValue),
      reviewScore := FillMissing(row.reviewScore, medians.reviewScore))
  }

  function NormalizeAll(rows: seq<RawRow>, medians: Imputation): (r: seq<RawRow>)
    ensures |r| == |rows|
  {
    seq(|rows|, i requires 0 <= i < |rows| => NormalizeRow(rows[i], medians))
  }

  // ---------------------------------------------------------------------
  // Stage 3: projection to the kept columns and `dropna`

  function ToRecord(row: RawRow): (r: Option<Record>)
    ensures r.Some? <==>
      row.customerCity.Some? && row.productCategoryName.Some? && row.paymentValue.Some?
    ensures r.Some? ==>
      && KeyOf(r.value) == KeyOfRaw(row)
      && Some(r.value.customerCity) == row.customerCity
      && Some(r.value.productCategoryName) == row.productCategoryName
      && Some(r.value.paymentValue) == row.paymentValue
    ensures r.Some? ==>
      && r.value.customerState == row.customerState
      && r.value.price == row.price
      && r.value.freightValue == row.freightValue
      && r.value.sellerId == row.sellerId
      && r.value.reviewScore == row.reviewScore
      && r.value.orderPurchaseTimestamp == row.orderPurchaseTimestamp
  {
    match (row.customerCity, row.productCategoryName, row.paymentValue)
    case (Some(city), Some(category), Some(payment)) =>
      Some(Record(
        row.orderId, row.customerId, row.productId, city, row.customerState,
        row.price, row.freightValue, payment, category, row.sellerId,
        row.reviewScore, row.orderPurchaseTimestamp))
    case _ => None
  }

  /** `dropna(subset=[customer_city, product_category_name, payment_value])`
      on the projected table: the records of the complete rows, in order. */
  function DropMissing(rows: seq<RawRow>): (r: seq<Record>)
    ensures |r| <= |rows|
    ensures forall i :: 0 <= i < |r| ==> exists j :: 0 <= j < |rows| && ToRecord(rows[j]) == Some(r[i])
    ensures forall j :: 0 <= j < |rows| && ToRecord(rows[j]).Some? ==> ToRecord(rows[j]).value in r
  {
    if rows == [] then []
    else
      var prefix, last := rows[..|rows| - 1], rows[|rows| - 1];
      var rest := DropMissing(prefix);
      assert forall j :: 0 <= j < |prefix| ==> prefix[j] == rows[j];
      rest + (match ToRecord(last) case Some(r) => [r] case None => [])
  }

  // ---------------------------------------------------------------------
  // Stages 1-3 row by row

  /** What stages 1-3 make of one input row: a record, or nothing when the
      row is dropped. */
  function PrepareRow(row: RawRow, medians: Imputation): (r: Option<Record>)
    ensures r.Some? <==>
      IsDelivered(row) && row.customerCity.Some? &&
      (row.paymentValue.Some? || medians.paymentValue.Some?)
    ensures r.Some? ==> KeyOf(r.value) == KeyOfRaw(row)
    ensures r.Some? ==> r.value.customerCity == NormalizeCity(row.customerCity.value)
    ensures r.Some? ==>
      r.value.productCategoryName ==
        (if row.productCategoryName.Some? then NormalizeCategory(row.productCategoryName.value)
         else UnknownCategory)
    ensures r.Some? ==> Some(r.value.paymentValue) == FillMissing(row.paymentValue, medians.paymentValue)
  {
    if IsDelivered(row) then ToRecord(NormalizeRow(row, medians)) else None
  }

  /** Each input row's outcome under stages 1-3. */
  function Prepared(raw: seq<RawRow>, medians: Imputation): (ps: seq<Option<Record>>)
    ensures |ps| == |raw|
  {
    seq(|raw|, i requires 0 <= i < |raw| => PrepareRow(raw[i], medians))
  }

  /** The records among `ps`, in order. */
  function Survivors(ps: seq<Option<Record>>): seq<Record> {
    if ps == [] then []
    else Survivors(ps[..|ps| - 1]) + (match ps[|ps| - 1] case Some(r) => [r] case None => [])
  }

  /** The rows that survive stages 1-3, in input order. */
  function Candidates(raw: seq<RawRow>, medians: Imputation): seq<Record> {
    Survivors(Prepared(raw, medians))
  }

  /** Filtering, rewriting and `dropna` as three whole-table passes give the
      same rows, in the same order, as preparing each row on its own. */
  lemma {:induction false} StagedEqualsRowwise(raw: seq<RawRow>, medians: Imputation)
    ensures DropMissing(NormalizeAll(KeepDelivered(raw), medians)) == Candidates(raw, medians)
  {
    if raw != [] {
      var prefix, last := raw[..|raw| - 1], raw[|raw| - 1];
      StagedEqualsRowwise(prefix, medians);
      var ps := Prepared(raw, medians);
      assert ps[..|raw| - 1] == Prepared(prefix, medians);
      assert ps[|raw| - 1] == PrepareRow(last, medians);
      var kept := KeepDelivered(prefix);
      if IsDelivered(last) {
        assert KeepDelivered(raw) == kept + [last];
        DeliveredStep(kept, last, medians);
      } else {
        assert KeepDelivered(raw) == kept;
      }
    }
  }

  /** Stages 2 and 3 on one more delivered row append what that row
      prepares to. */
  lemma DeliveredStep(kept: seq<RawRow>, last: RawRow, medians: Imputation)
    requires IsDelivered(last)
    ensures DropMissing(NormalizeAll(kept + [last], medians)) ==
      DropMissing(NormalizeAll(kept, medians)) +
      (match PrepareRow(last, medians) case Some(r) => [r] case None => [])
  {
    var normalized := NormalizeAll(kept + [last], medians);
    assert normalized[..|normalized| - 1] == NormalizeAll(kept, medians);
    assert normalized[|normalized| - 1] == NormalizeRow(last, medians);
  }

  /** `idx` lists, in increasing order, exactly the positions of `ps` that
      hold a record, and `out[k]` is the record at position `idx[k]`. */
  ghost predicate SurvivorsAt(ps: seq<Option<Record>>, out: seq<Record>, idx: seq<nat>) {
    && |idx| == |out|
    && (forall k :: 0 <= k < |idx| ==> idx[k] < |ps| && ps[idx[k]] == Some(out[k]))
    && (forall k, l :: 0 <= k < l < |idx| ==> idx[k] < idx[l])
    && (forall i :: 0 <= i < |ps| && ps[i].Some? ==> i in idx)
  }

  /** The positions `Survivors` takes its records from. */
  function SurvivorOrigins(ps: seq<Option<Record>>): (idx: seq<nat>)
    ensures SurvivorsAt(ps, Survivors(ps), idx)
  {
    if ps == [] then []
    else
      var rest := SurvivorOrigins(ps[..|ps| - 1]);
      SurvivorStep(ps, Survivors(ps[..|ps| - 1]), rest);
      NextSurvivorOrigins(ps, rest)
  }

  function NextSurvivorOrigins(ps: seq<Option<Record>>, rest: seq<nat>): seq<nat>
    requires ps != []
  {
    if ps[|ps| - 1].Some? then rest + [|ps| - 1] else rest
  }

  lemma SurvivorStep(ps: seq<Option<Record>>, out: seq<Record>, rest: seq<nat>)
    requires ps != [] && SurvivorsAt(ps[..|ps| - 1], out, rest)
    requires out == Survivors(ps[..|ps| - 1])
    ensures SurvivorsAt(ps, Survivors(ps), NextSurvivorOrigins(ps, rest))
  {
    match ps[|ps| - 1]
    case Some(r) =>
      assert Survivors(ps) == out + [r];
      KeptStep(ps, out, rest, r);
    case None =>
      assert Survivors(ps) == out;
      DroppedStep(ps, out, rest);
  }

  lemma DroppedStep(ps: seq<Option<Record>>, out: seq<Record>, rest: seq<nat>)
    requires ps != [] && ps[|ps| - 1].None?
    requires SurvivorsAt(ps[..|ps| - 1], out, rest)
    ensures SurvivorsAt(ps, out, rest)
  {
    var prefix := ps[..|ps| - 1];
    forall k | 0 <= k < |rest|
      ensures rest[k] < |ps| && ps[rest[k]] == Some(out[k])
    {
      assert ps[rest[k]] == prefix[rest[k]];
    }
    forall i | 0 <= i < |ps| && ps[i].Some?
      ensures i in rest
    {
      assert i < |prefix| && ps[i] == prefix[i];
    }
  }

  lemma KeptStep(ps: seq<Option<Record>>, out: seq<Record>, rest: seq<nat>, r: Record)
    requires ps != [] && ps[|ps| - 1] == Some(r)
    requires SurvivorsAt(ps[..|ps| - 1], out, rest)
    ensures SurvivorsAt(ps, out + [r], rest + [|ps| - 1])
  {
    var prefix := ps[..|ps| - 1];
    var idx := rest + [|ps| - 1];
    var out' := out + [r];
    forall k | 0 <= k < |idx|
      ensures idx[k] < |ps| && ps[idx[k]] == Some(out'[k])
    {
      if k < |rest| {
        assert idx[k] == rest[k] && out'[k] == out[k];
        assert ps[rest[k]] == prefix[rest[k]];
      }
    }
    forall k, l | 0 <= k < l < |idx|
      ensures idx[k] < idx[l]
    {
      if l < |rest| {
        assert idx[k] == rest[k] && idx[l] == rest[l];
      } else {
        assert idx[k] == rest[k];
      }
    }
    forall i | 0 <= i < |ps| && ps[i].Some?
      ensures i in idx
    {
      if i < |prefix| {
        assert ps[i] == prefix[i];
      }
    }
  }

  /** `idx` lists, in increasing order, the input positions whose row
      survives stages 1-3, and row `k` of `out` is what position `idx[k]`
      prepares to. */
  ghost predicate PreparedAt(raw: seq<RawRow>, medians: Imputation, out: seq<Record>, idx: seq<nat>) {
    && |idx| == |out|
    && (forall k :: 0 <= k < |idx| ==>
          idx[k] < |raw| && PrepareRow(raw[idx[k]], medians) == Some(out[k]))
    && (forall k, l :: 0 <= k < l < |idx| ==> idx[k] < idx[l])
    && (forall i :: 0 <= i < |raw| && PrepareRow(raw[i], medians).Some? ==> i in idx)
  }

  /** Where each prepared row comes from. */
  function CandidateOrigins(raw: seq<RawRow>, medians: Imputation): (idx: seq<nat>)
    ensures PreparedAt(raw, medians, Candidates(raw, medians), idx)
  {
    var ps := Prepared(raw, medians);
    var idx := SurvivorOrigins(ps);
    assert forall i :: 0 <= i < |raw| ==> ps[i] == PrepareRow(raw[i], medians);
    idx
  }

  /** An increasing list of positions below `n` has at most `n` entries. */
  lemma {:induction false} StrictlyIncreasingBound(idx: seq<nat>, n: nat)
    requires forall k :: 0 <= k < |idx| ==> idx[k] < n
    requires forall k, l :: 0 <= k < l < |idx| ==> idx[k] < idx[l]
    ensures |idx| <= n
    decreases n
  {
    if idx != [] {
      var last := idx[|idx| - 1];
      StrictlyIncreasingBound(idx[..|idx| - 1], last);
    }
  }

  // ---------------------------------------------------------------------
  // The whole cleaning function

  function CleanAndMerge(raw: seq<RawRow>, medians: Imputation): (cleaned: seq<Record>)
    ensures UniqueKeys(cleaned)
    ensures |cleaned| <= |raw|
  {
    var prepared := DropMissing(NormalizeAll(KeepDelivered(raw), medians));
    StagedEqualsRowwise(raw, medians);
    var outer := CandidateOrigins(raw, medians);
    StrictlyIncreasingBound(outer, |raw|);
    DropDuplicates(prepared)
  }

  /** The cleaned table is the de-duplicated row-by-row preparation. */
  lemma CleanIsDedupOfCandidates(raw: seq<RawRow>, medians: Imputation)
    ensures CleanAndMerge(raw, medians) == DropDuplicates(Candidates(raw, medians))
  {
    StagedEqualsRowwise(raw, medians);
  }

  /** `idx` lists, in increasing order, input positions; cleaned row `k` is
      what position `idx[k]` prepares to, and no earlier surviving input
      row has its key. */
  ghost predicate CleanedAt(raw: seq<RawRow>, medians: Imputation, cleaned: seq<Record>, idx: seq<nat>) {
    && |idx| == |cleaned|
    && (forall k :: 0 <= k < |idx| ==>
          idx[k] < |raw| && PrepareRow(raw[idx[k]], medians) == Some(cleaned[k]))
    && (forall k, l :: 0 <= k < l < |idx| ==> idx[k] < idx[l])
    && (forall k, j ::
          0 <= k < |idx| && 0 <= j < idx[k] && idx[k] < |raw| && PrepareRow(raw[j], medians).Some?
          ==> KeyOfRaw(raw[j]) != KeyOfRaw(raw[idx[k]]))
  }

  /** Provenance of every cleaned row: which input row it is, and that it
      is the first surviving input row with its key. */
  function CleanOrigins(raw: seq<RawRow>, medians: Imputation): (idx: seq<nat>)
    ensures CleanedAt(raw, medians, CleanAndMerge(raw, medians), idx)
  {
    CleanIsDedupOfCandidates(raw, medians);
    var ps := Prepared(raw, medians);
    var candidates := Survivors(ps);
    var outer := SurvivorOrigins(ps);
    var inner := DedupOrigins(candidates);
    ComposeOrigins(ps, candidates, outer, DropDuplicates(candidates), inner);
    var idx := Compose(outer, inner);
    DedupedIsCleaned(raw, medians, DropDuplicates(candidates), idx);
    idx
  }

  /** `outer[inner[k]]` for each `k`. */
  function Compose(outer: seq<nat>, inner: seq<nat>): (idx: seq<nat>)
    requires forall k :: 0 <= k < |inner| ==> inner[k] < |outer|
    ensures |idx| == |inner|
  {
    seq(|inner|, k requires 0 <= k < |inner| => outer[inner[k]])
  }

  /** `CleanedAt` over the outcomes of the rows rather than the rows. */
  ghost predicate DedupedAt(ps: seq<Option<Record>>, out: seq<Record>, idx: seq<nat>) {
    && |idx| == |out|
    && (forall k :: 0 <= k < |idx| ==> idx[k] < |ps| && ps[idx[k]] == Some(out[k]))
    && (forall k, l :: 0 <= k < l < |idx| ==> idx[k] < idx[l])
    && (forall k, j :: 0 <= k < |idx| && 0 <= j < idx[k] && ps[j].Some? ==>
          KeyOf(ps[j].value) != KeyOf(out[k]))
  }

  lemma ComposeOrigins(ps: seq<Option<Record>>, candidates: seq<Record>,
                       outer: seq<nat>, deduped: seq<Record>, inner: seq<nat>)
    requires SurvivorsAt(ps, candidates, outer)
    requires FirstOccurrencesAt(candidates, deduped, inner)
    ensures DedupedAt(ps, deduped, Compose(outer, inner))
  {
    var idx := Compose(outer, inner);
    forall k, l | 0 <= k < l < |idx|
      ensures idx[k] < idx[l]
    {
      assert inner[k] < inner[l];
    }
    forall k, j | 0 <= k < |idx| && 0 <= j < idx[k] && ps[j].Some?
      ensures KeyOf(ps[j].value) != KeyOf(deduped[k])
    {
      var n := inner[k];
      assert j in outer;
      var m :| 0 <= m < |outer| && outer[m] == j;
      assert IsFirstOccurrence(candidates, n);
      assert KeyOf(candidates[m]) != KeyOf(candidates[n]);
    }
  }

  lemma DedupedIsCleaned(raw: seq<RawRow>, medians: Imputation, out: seq<Record>, idx: seq<nat>)
    requires DedupedAt(Prepared(raw, medians), out, idx)
    ensures CleanedAt(raw, medians, out, idx)
  {
    var ps := Prepared(raw, medians);
    forall k | 0 <= k < |idx|
      ensures idx[k] < |raw| && PrepareRow(raw[idx[k]], medians) == Some(out[k])
    {
      assert ps[idx[k]] == PrepareRow(raw[idx[k]], medians);
    }
    forall k, j | 0 <= k < |idx| && 0 <= j < idx[k] && idx[k] < |raw| &&
                  PrepareRow(raw[j], medians).Some?
      ensures KeyOfRaw(raw[j]) != KeyOfRaw(raw[idx[k]])
    {
      assert ps[j] == PrepareRow(raw[j], medians);
      assert ps[idx[k]] == PrepareRow(raw[idx[k]], medians);
    }
  }

  /** Every cleaned row is the rewrite of a delivered input row. */
  lemma CleanedRowsAreDelivered(raw: seq<RawRow>, medians: Imputation, k: nat)
    requires k < |CleanAndMerge(raw, medians)|
    ensures exists i ::
      && 0 <= i < |raw| && IsDelivered(raw[i])
      && PrepareRow(raw[i], medians) == Some(CleanAndMerge(raw, medians)[k])
  {
    var idx := CleanOrigins(raw, medians);
    assert IsDelivered(raw[idx[k]]);
  }

  /** Nothing is lost but duplicates: the key of every row that survives
      stages 1-3 is the key of some cleaned row. */
  lemma CleanKeepsEveryKey(raw: seq<RawRow>, medians: Imputation, i: nat)
    requires i < |raw| && PrepareRow(raw[i], medians).Some?
    ensures KeyOfRaw(raw[i]) in KeysOf(CleanAndMerge(raw, medians))
  {
    CleanIsDedupOfCandidates(raw, medians);
    var candidates := Candidates(raw, medians);
    var outer := CandidateOrigins(raw, medians);
    assert i in outer;
    var k :| 0 <= k < |outer| && outer[k] == i;
    KeyPresent(candidates, k);
  }

  /** A missing category never costs a row: two rows that differ only in
      their category are both kept or both dropped. */
  lemma CategoryNeverDropsARow(row: RawRow, medians: Imputation)
    ensures PrepareRow(row, medians).Some? ==
      PrepareRow(row.(productCategoryName := None), medians).Some?
    ensures PrepareRow(row.(productCategoryName := None), medians).Some? ==>
      PrepareRow(row.(productCategoryName := None), medians).value.productCategoryName == UnknownCategory
  {
  }
}

=== FILE: contribution.dfy ===
/** Contribution percentages of ranked groups, their running (cumulative)
    sum, the threshold filter and the dominant-key rule with its fallback. */
module Contribution {
  import opened Wrappers
  import opened Aggregation

  /** A float64 percentage: exact when the whole is non-zero, otherwise
      the IEEE result of dividing by zero. */
  datatype Percent = Finite(value: real) | PlusInfinity | MinusInfinity | NotANumber

  /** `(part / whole) * 100` as pandas computes it on float64 columns. */
  function Percentage(part: real, whole: real): (p: Percent)
    ensures whole != 0.0 ==> p.Finite? && p.value * whole == part * 100.0
    ensures whole == 0.0 ==> (p == PlusInfinity <==> part > 0.0)
    ensures whole == 0.0 ==> (p == MinusInfinity <==> part < 0.0)
    ensures whole == 0.0 ==> (p == NotANumber <==> part == 0.0)
  {
    if whole != 0.0 then Finite(part / whole * 100.0)
    else if part > 0.0 then PlusInfinity
    else if part < 0.0 then MinusInfinity
    else NotANumber
  }

  /** `percentage >= threshold`; every comparison with NaN is false. */
  predicate AtLeast(p: Percent, threshold: real) {
    match p
    case Finite(v) => v >= threshold
    case PlusInfinity => true
    case MinusInfinity => false
    case NotANumber => false
  }

  /** The comparison is upward closed in the percentage's order and
      downward closed in the threshold: a NaN percentage meets no
      threshold, +inf meets every threshold, -inf none, and a percentage
      that meets a threshold meets every lower one. */
  lemma AtLeastOrder(p: Percent, threshold: real, lower: real)
    requires lower <= threshold
    ensures p == NotANumber ==> !AtLeast(p, lower) && !AtLeast(p, threshold)
    ensures p == PlusInfinity ==> AtLeast(p, threshold)
    ensures p == MinusInfinity ==> !AtLeast(p, lower)
    ensures AtLeast(p, threshold) ==> AtLeast(p, lower)
    ensures p.Finite? ==> (AtLeast(p, threshold) <==> p.value >= threshold)
  {
  }

  /** IEEE addition of two percentages. */
  function Plus(a: Percent, b: Percent): Percent {
    match (a, b)
    case (NotANumber, _) => NotANumber
    case (_, NotANumber) => NotANumber
    case (PlusInfinity, MinusInfinity) => NotANumber
    case (MinusInfinity, PlusInfinity) => NotANumber
    case (PlusInfinity, _) => PlusInfinity
    case (_, PlusInfinity) => PlusInfinity
    case (MinusInfinity, _) => MinusInfinity
    case (_, MinusInfinity) => MinusInfinity
    case (Finite(x), Finite(y)) => Finite(x + y)
  }

  /** One row of a ranked table with its contribution percentage. */
  datatype Share = Share(key: string, total: real, percentage: Percent)

  /** The `contribution_percentage` column added to a ranked table. */
  function Shares(ranked: seq<Group>, whole: real): (r: seq<Share>)
    ensures |r| == |ranked|
    ensures forall i :: 0 <= i < |r| ==>
      r[i].key == ranked[i].key && r[i].total == ranked[i].total &&
      r[i].percentage == Percentage(ranked[i].total, whole)
  {
    seq(|ranked|, i requires 0 <= i < |ranked| => Share(ranked[i].key, ranked[i].total,
      Percentage(ranked[i].total, whole)))
  }

  function Percentages(shares: seq<Share>): (ps: seq<Percent>)
    ensures |ps| == |shares|
    ensures forall i :: 0 <= i < |shares| ==> ps[i] == shares[i].percentage
  {
    seq(|shares|, i requires 0 <= i < |shares| => shares[i].percentage)
  }

  /** The running total pandas keeps in `cumsum`: NaN entries are skipped
      (counted as zero), everything else is added with IEEE addition. */
  function RunningSum(ps: seq<Percent>): Percent {
    if ps == [] then Finite(0.0)
    else
      var acc := RunningSum(ps[..|ps| - 1]);
      if ps[|ps| - 1] == NotANumber then acc else Plus(acc, ps[|ps| - 1])
  }

  /** `Series.cumsum()` with its default `skipna=True`: a NaN entry shows
      NaN, every other entry shows the running total of the non-NaN entries
      so far (`CumulativeSkipsNaN` states the general rule). */
  function CumulativeSum(ps: seq<Percent>): (r: seq<Percent>)
    ensures |r| == |ps|
    ensures forall i :: 0 <= i < |ps| && ps[i] == NotANumber ==> r[i] == NotANumber
    ensures |ps| > 0 && ps[0] != NotANumber ==> r[0] == Plus(Finite(0.0), ps[0])
    ensures forall i :: 0 < i < |ps| && ps[i] != NotANumber && ps[i - 1] != NotANumber ==>
      r[i] == Plus(r[i - 1], ps[i])
  {
    var r := seq(|ps|, i requires 0 <= i < |ps| =>
      if ps[i] == NotANumber then NotANumber else RunningSum(ps[..i + 1]));
    forall i | 0 < i < |ps| && ps[i] != NotANumber && ps[i - 1] != NotANumber
      ensures r[i] == Plus(r[i - 1], ps[i])
    {
      RunningSumLast(ps, i);
    }
    assert |ps| > 0 ==>
      && ps[..1][..0] == [] && ps[..1][0] == ps[0]
      && RunningSum(ps[..1]) == (if ps[0] == NotANumber then RunningSum([]) else Plus(RunningSum([]), ps[0]));
    r
  }

  /** The skipping rule of `cumsum`: a non-NaN entry preceded only by NaNs
      starts from zero, and any other non-NaN entry adds its value to the
      last non-NaN entry before it, whatever NaNs lie in between. */
  lemma CumulativeSkipsNaN(ps: seq<Percent>)
    ensures forall i :: 0 <= i < |ps| && ps[i] != NotANumber && (forall k :: 0 <= k < i ==> ps[k] == NotANumber) ==>
      CumulativeSum(ps)[i] == Plus(Finite(0.0), ps[i])
    ensures forall i, j ::
      0 <= j < i < |ps| && ps[i] != NotANumber && ps[j] != NotANumber &&
      (forall k :: j < k < i ==> ps[k] == NotANumber) ==>
        CumulativeSum(ps)[i] == Plus(CumulativeSum(ps)[j], ps[i])
  {
    forall i | 0 <= i < |ps| && ps[i] != NotANumber && (forall k :: 0 <= k < i ==> ps[k] == NotANumber)
      ensures CumulativeSum(ps)[i] == Plus(Finite(0.0), ps[i])
    {
      CumulativeFirst(ps, i);
    }
    forall i, j | 0 <= j < i < |ps| && ps[i] != NotANumber && ps[j] != NotANumber &&
      (forall k :: j < k < i ==> ps[k] == NotANumber)
      ensures CumulativeSum(ps)[i] == Plus(CumulativeSum(ps)[j], ps[i])
    {
      CumulativeAfter(ps, j, i);
    }
  }

  /** A non-NaN entry with only NaNs before it starts from zero. */
  lemma CumulativeFirst(ps: seq<Percent>, i: nat)
    requires i < |ps| && ps[i] != NotANumber
    requires forall k :: 0 <= k < i ==> ps[k] == NotANumber
    ensures CumulativeSum(ps)[i] == Plus(Finite(0.0), ps[i])
  {
    RunningSumLast(ps, i);
    RunningSumOverNaN(ps, 0, i);
    assert ps[..0] == [];
  }

  /** A non-NaN entry adds its value to the last non-NaN entry before it. */
  lemma CumulativeAfter(ps: seq<Percent>, j: nat, i: nat)
    requires j < i < |ps| && ps[i] != NotANumber && ps[j] != NotANumber
    requires forall k :: j < k < i ==> ps[k] == NotANumber
    ensures CumulativeSum(ps)[i] == Plus(CumulativeSum(ps)[j], ps[i])
  {
    RunningSumLast(ps, i);
    RunningSumOverNaN(ps, j + 1, i);
  }

  /** The running total through a non-NaN entry adds that entry. */
  lemma RunningSumLast(ps: seq<Percent>, i: nat)
    requires i < |ps| && ps[i] != NotANumber
    ensures RunningSum(ps[..i + 1]) == Plus(RunningSum(ps[..i]), ps[i])
  {
    assert ps[..i + 1][..i] == ps[..i];
  }

  /** NaN entries leave the running total alone. */
  lemma {:induction false} RunningSumOverNaN(ps: seq<Percent>, lo: nat, hi: nat)
    requires lo <= hi <= |ps|
    requires forall k :: lo <= k < hi ==> ps[k] == NotANumber
    ensures RunningSum(ps[..hi]) == RunningSum(ps[..lo])
    decreases hi
  {
    if lo < hi {
      assert ps[..hi][..hi - 1] == ps[..hi - 1];
      RunningSumOverNaN(ps, lo, hi - 1);
    }
  }

  /** The `cumulative_contribution` column. */
  function CumulativeContribution(shares: seq<Share>): (r: seq<Percent>)
    ensures |r| == |shares|
    ensures forall i :: 0 <= i < |shares| && shares[i].percentage == NotANumber ==> r[i] == NotANumber
    ensures forall i ::
      0 < i < |shares| && shares[i].percentage != NotANumber && shares[i - 1].percentage != NotANumber ==>
        r[i] == Plus(r[i - 1], shares[i].percentage)
  {
    CumulativeSum(Percentages(shares))
  }

  /** The skipping rule of `cumsum` over the shares' percentages. */
  lemma CumulativeContributionSkipsNaN(shares: seq<Share>)
    ensures forall i ::
      0 <= i < |shares| && shares[i].percentage != NotANumber &&
      (forall k :: 0 <= k < i ==> shares[k].percentage == NotANumber) ==>
        CumulativeContribution(shares)[i] == Plus(Finite(0.0), shares[i].percentage)
    ensures forall i, j ::
      0 <= j < i < |shares| && shares[i].percentage != NotANumber && shares[j].percentage != NotANumber &&
      (forall k :: j < k < i ==> shares[k].percentage == NotANumber) ==>
        CumulativeContribution(shares)[i] == Plus(CumulativeContribution(shares)[j], shares[i].percentage)
  {
    CumulativeSkipsNaN(Percentages(shares));
  }

  lemma PercentOfSum(a: real, b: real, whole: real)
    requires whole != 0.0
    ensures a / whole * 100.0 + b / whole * 100.0 == (a + b) / whole * 100.0
  {
  }

  /** With a non-zero whole, the running total of the first `n` percentages
      is the percentage of the first `n` totals. */
  lemma {:induction false} RunningSumIsPrefixPercent(ranked: seq<Group>, whole: real, n: nat)
    requires whole != 0.0 && n <= |ranked|
    ensures RunningSum(Percentages(Shares(ranked, whole))[..n]) == Finite(Total(ranked[..n]) / whole * 100.0)
  {
    var ps := Percentages(Shares(ranked, whole));
    if n > 0 {
      RunningSumIsPrefixPercent(ranked, whole, n - 1);
      assert ps[..n][..n - 1] == ps[..n - 1];
      assert ranked[..n][..n - 1] == ranked[..n - 1];
      PercentOfSum(Total(ranked[..n - 1]), ranked[n - 1].total, whole);
    } else {
      assert ranked[..0] == [];
    }
  }

  /** Each cumulative contribution is the share of the grand total held by
      the groups ranked up to and including that row. */
  lemma CumulativeIsPrefixShare(ranked: seq<Group>, whole: real, i: nat)
    requires whole != 0.0 && i < |ranked|
    ensures CumulativeContribution(Shares(ranked, whole))[i] == Finite(Total(ranked[..i + 1]) / whole * 100.0)
  {
    RunningSumIsPrefixPercent(ranked, whole, i + 1);
  }

  /** When the whole is the (non-zero) sum of the ranked totals, the
      percentages add up to exactly 100. */
  lemma PercentagesSumToHundred(ranked: seq<Group>)
    requires Total(ranked) != 0.0
    ensures RunningSum(Percentages(Shares(ranked, Total(ranked)))) == Finite(100.0)
  {
    var whole := Total(ranked);
    var ps := Percentages(Shares(ranked, whole));
    RunningSumIsPrefixPercent(ranked, whole, |ranked|);
    assert ps[..|ranked|] == ps;
    assert ranked[..|ranked|] == ranked;
    WholeIsHundred(whole);
  }

  /** ... and the cumulative contribution ends at 100. */
  lemma CumulativeEndsAtHundred(ranked: seq<Group>)
    requires ranked != [] && Total(ranked) != 0.0
    ensures CumulativeContribution(Shares(ranked, Total(ranked)))[|ranked| - 1] == Finite(100.0)
  {
    var whole := Total(ranked);
    CumulativeIsPrefixShare(ranked, whole, |ranked| - 1);
    assert ranked[..|ranked|] == ranked;
    WholeIsHundred(whole);
  }

  lemma WholeIsHundred(whole: real)
    requires whole != 0.0
    ensures whole / whole * 100.0 == 100.0
  {
  }

  lemma {:induction false} PrefixTotalMonotone(ranked: seq<Group>, i: nat, j: nat)
    requires i <= j <= |ranked|
    requires forall k :: 0 <= k < |ranked| ==> ranked[k].total >= 0.0
    ensures Total(ranked[..i]) <= Total(ranked[..j])
    decreases j - i
  {
    if i < j {
      PrefixTotalMonotone(ranked, i, j - 1);
      assert ranked[..j][..j - 1] == ranked[..j - 1];
    }
  }

  lemma DivideMonotone(a: real, b: real, whole: real)
    requires whole > 0.0 && a <= b
    ensures a / whole * 100.0 <= b / whole * 100.0
  {
    assert (b - a) / whole >= 0.0;
    assert b / whole - a / whole == (b - a) / whole;
  }

  /** With non-negative totals and a positive whole, the cumulative
      contribution never decreases. */
  lemma CumulativeNonDecreasing(ranked: seq<Group>, whole: real, i: nat, j: nat)
    requires whole > 0.0 && i <= j < |ranked|
    requires forall k :: 0 <= k < |ranked| ==> ranked[k].total >= 0.0
    ensures CumulativeContribution(Shares(ranked, whole))[i].Finite?
    ensures CumulativeContribution(Shares(ranked, whole))[j].Finite?
    ensures CumulativeContribution(Shares(ranked, whole))[i].value <=
            CumulativeContribution(Shares(ranked, whole))[j].value
  {
    CumulativeIsPrefixShare(ranked, whole, i);
    CumulativeIsPrefixShare(ranked, whole, j);
    PrefixTotalMonotone(ranked, i + 1, j + 1);
    DivideMonotone(Total(ranked[..i + 1]), Total(ranked[..j + 1]), whole);
  }

  /** The position of the first share at or above the threshold. */
  function FirstMeeting(shares: seq<Share>, threshold: real): (r: Option<nat>)
    ensures r.Some? ==> r.value < |shares| && AtLeast(shares[r.value].percentage, threshold)
    ensures r.Some? ==> forall j :: 0 <= j < r.value ==> !AtLeast(shares[j].percentage, threshold)
    ensures r.None? ==> forall j :: 0 <= j < |shares| ==> !AtLeast(shares[j].percentage, threshold)
  {
    if shares == [] then None
    else
      var prefix := shares[..|shares| - 1];
      var r := FirstMeeting(prefix, threshold);
      assert forall j :: 0 <= j < |prefix| ==> prefix[j] == shares[j];
      if r.Some? then r
      else if AtLeast(shares[|shares| - 1].percentage, threshold) then Some(|shares| - 1)
      else None
  }

  /** `table[table['contribution_percentage'] >= threshold]`: the shares at
      or above the threshold, in ranked order. */
  function MeetingThreshold(shares: seq<Share>, threshold: real): (r: seq<Share>)
    ensures forall i :: 0 <= i < |r| ==> AtLeast(r[i].percentage, threshold) && r[i] in shares
    ensures forall i :: 0 <= i < |shares| && AtLeast(shares[i].percentage, threshold) ==> shares[i] in r
    ensures |r| <= |shares|
  {
    if shares == [] then []
    else
      var prefix, last := shares[..|shares| - 1], shares[|shares| - 1];
      assert shares == prefix + [last];
      MeetingThreshold(prefix, threshold) + (if AtLeast(last.percentage, threshold) then [last] else [])
  }

  /** `idx` places each row of `meeting` in `shares`: in increasing
      positions, and covering every share at or above the threshold. */
  ghost predicate MeetingAt(shares: seq<Share>, threshold: real, meeting: seq<Share>, idx: seq<nat>) {
    && |idx| == |meeting|
    && (forall k :: 0 <= k < |idx| ==> idx[k] < |shares| && shares[idx[k]] == meeting[k])
    && (forall k, l :: 0 <= k < l < |idx| ==> idx[k] < idx[l])
    && (forall i :: 0 <= i < |shares| && AtLeast(shares[i].percentage, threshold) ==> i in idx)
  }

  /** Where each row of the filtered table sits in the ranked table: the
      mask keeps every qualifying row exactly once, in ranked order. */
  function MeetingOrigins(shares: seq<Share>, threshold: real): (idx: seq<nat>)
    ensures MeetingAt(shares, threshold, MeetingThreshold(shares, threshold), idx)
  {
    if shares == [] then []
    else
      var rest := MeetingOrigins(shares[..|shares| - 1], threshold);
      MeetingOriginsStep(shares, threshold, rest);
      NextMeetingOrigins(shares, threshold, rest)
  }

  function NextMeetingOrigins(shares: seq<Share>, threshold: real, rest: seq<nat>): seq<nat>
    requires shares != []
  {
    if AtLeast(shares[|shares| - 1].percentage, threshold) then rest + [|shares| - 1] else rest
  }

  lemma MeetingOriginsStep(shares: seq<Share>, threshold: real, rest: seq<nat>)
    requires shares != []
    requires MeetingAt(shares[..|shares| - 1], threshold, MeetingThreshold(shares[..|shares| - 1], threshold), rest)
    ensures MeetingAt(shares, threshold, MeetingThreshold(shares, threshold), NextMeetingOrigins(shares, threshold, rest))
  {
    var prefix, last := shares[..|shares| - 1], shares[|shares| - 1];
    var m := MeetingThreshold(prefix, threshold);
    if AtLeast(last.percentage, threshold) {
      assert MeetingThreshold(shares, threshold) == m + [last];
      MeetingKept(shares, threshold, m, rest);
    } else {
      assert MeetingThreshold(shares, threshold) == m;
      MeetingSkipped(shares, threshold, m, rest);
    }
  }

  /** A qualifying last share is appended at its own position. */
  lemma MeetingKept(shares: seq<Share>, threshold: real, m: seq<Share>, rest: seq<nat>)
    requires shares != [] && AtLeast(shares[|shares| - 1].percentage, threshold)
    requires MeetingAt(shares[..|shares| - 1], threshold, m, rest)
    ensures MeetingAt(shares, threshold, m + [shares[|shares| - 1]], rest + [|shares| - 1])
  {
    var n := |shares| - 1;
    var idx := rest + [n];
    forall k | 0 <= k < |idx|
      ensures idx[k] < |shares| && shares[idx[k]] == (m + [shares[n]])[k]
    {
      if k < |rest| {
        assert shares[..n][rest[k]] == shares[rest[k]];
      }
    }
    forall i | 0 <= i < |shares| && AtLeast(shares[i].percentage, threshold)
      ensures i in idx
    {
      if i < n {
        assert shares[..n][i] == shares[i];
        assert i in rest;
      } else {
        assert idx[|idx| - 1] == i;
      }
    }
  }

  /** A last share below the threshold leaves the filtered table alone. */
  lemma MeetingSkipped(shares: seq<Share>, threshold: real, m: seq<Share>, rest: seq<nat>)
    requires shares != [] && !AtLeast(shares[|shares| - 1].percentage, threshold)
    requires MeetingAt(shares[..|shares| - 1], threshold, m, rest)
    ensures MeetingAt(shares, threshold, m, rest)
  {
    var n := |shares| - 1;
    forall k | 0 <= k < |rest|
      ensures rest[k] < |shares| && shares[rest[k]] == m[k]
    {
      assert shares[..n][rest[k]] == shares[rest[k]];
    }
    forall i | 0 <= i < |shares| && AtLeast(shares[i].percentage, threshold)
      ensures i in rest
    {
      assert shares[..n][i] == shares[i];
    }
  }

  /** The filtered table is non-empty exactly when some share meets the
      threshold, and it starts with the first one that does. */
  lemma {:induction false} MeetingStartsAtFirst(shares: seq<Share>, threshold: real)
    ensures MeetingThreshold(shares, threshold) != [] <==> FirstMeeting(shares, threshold).Some?
    ensures MeetingThreshold(shares, threshold) != [] ==>
      MeetingThreshold(shares, threshold)[0] == shares[FirstMeeting(shares, threshold).value]
  {
    if shares != [] {
      var prefix := shares[..|shares| - 1];
      MeetingStartsAtFirst(prefix, threshold);
      assert forall j :: 0 <= j < |prefix| ==> prefix[j] == shares[j];
    }
  }

  /** The dominant key: the first ranked key at or above the threshold,
      otherwise the top-ranked key; nothing for an empty table (where
      `iloc[0]` raises). */
  function DominantKey(shares: seq<Share>, threshold: real): (r: Option<string>)
    ensures r.None? <==> shares == []
    ensures FirstMeeting(shares, threshold).Some? ==>
      r == Some(shares[FirstMeeting(shares, threshold).value].key)
    ensures FirstMeeting(shares, threshold).None? && shares != [] ==> r == Some(shares[0].key)
  {
    var top := MeetingThreshold(shares, threshold);
    MeetingStartsAtFirst(shares, threshold);
    if top != [] then Some(top[0].key)
    else if shares != [] then Some(shares[0].key)
    else None
  }

  /** With a non-negative whole, a larger total never has a smaller
      percentage: meeting the threshold is upward closed. */
  lemma AtLeastMonotone(a: real, b: real, whole: real, threshold: real)
    requires whole >= 0.0 && a >= b
    requires AtLeast(Percentage(b, whole), threshold)
    ensures AtLeast(Percentage(a, whole), threshold)
  {
    if whole > 0.0 {
      DivideMonotone(b, a, whole);
    }
  }

  /** With a non-negative whole the threshold never changes the outcome:
      the dominant key is always the top-ranked one. */
  lemma DominantIsTop(ranked: seq<Group>, whole: real, threshold: real)
    requires NonIncreasing(ranked) && ranked != [] && whole >= 0.0
    ensures DominantKey(Shares(ranked, whole), threshold) == Some(ranked[0].key)
  {
    var shares := Shares(ranked, whole);
    var first := FirstMeeting(shares, threshold);
    if first.Some? {
      AtLeastMonotone(ranked[0].total, ranked[first.value].total, whole, threshold);
    }
  }

  /** With a negative whole the order is reversed, and a key below the top
      can be the dominant one. */
  lemma NegativeWholeCanSkipTop()
    ensures var ranked := [Group("A", 5.0), Group("B", -10.0)];
      NonIncreasing(ranked) &&
      DominantKey(Shares(ranked, Total(ranked)), 10.0) == Some("B")
  {
    var ranked := [Group("A", 5.0), Group("B", -10.0)];
    assert ranked[..1][..0] == [];
    assert ranked[..1] == [Group("A", 5.0)];
    assert Total(ranked) == -5.0;
    var shares := Shares(ranked, -5.0);
    assert shares[0].percentage == Finite(-100.0);
    assert shares[1].percentage == Finite(200.0);
    assert FirstMeeting(shares, 10.0) == Some(1);
  }
}

=== FILE: dashboard.dfy ===
/** The dashboard's analysis pipeline: rank the cities of the cleaned table
    by sales, pick the dominant city, and rank the product categories sold
    in that city. */
module Dashboard {
  import opened Wrappers
  import opened Rows
  import opened Cleaning
  import opened Aggregation
  import opened Contribution

  /** The (city, payment) column pair of the cleaned table. */
  function CityEntries(cleaned: seq<Record>): (es: seq<Entry>)
    ensures |es| == |cleaned|
    ensures forall i :: 0 <= i < |es| ==>
      es[i].key == cleaned[i].customerCity && es[i].amount == cleaned[i].paymentValue
  {
    seq(|cleaned|, i requires 0 <= i < |cleaned| =>
      Entry(cleaned[i].customerCity, cleaned[i].paymentValue))
  }

  /** The (category, payment) column pair of a table. */
  function CategoryEntries(rows: seq<Record>): (es: seq<Entry>)
    ensures |es| == |rows|
    ensures forall i :: 0 <= i < |es| ==>
      es[i].key == rows[i].productCategoryName && es[i].amount == rows[i].paymentValue
  {
    seq(|rows|, i requires 0 <= i < |rows| =>
      Entry(rows[i].productCategoryName, rows[i].paymentValue))
  }

  /** One grouped, ranked table with its percentages and the rows that
      meet the threshold. */
  datatype Analysis = Analysis(ranked: seq<Share>, whole: real, meeting: seq<Share>)

  /** Group by key, sum, rank descending, add each group's percentage of
      the sum of all amounts, and keep the groups at or above `threshold`. */
  function Analyse(es: seq<Entry>, threshold: real): (a: Analysis)
    ensures a.whole == Sum(es)
    ensures RankedSharesOf(es, a.ranked, a.whole)
    ensures forall i :: 0 <= i < |a.meeting| ==> AtLeast(a.meeting[i].percentage, threshold) && a.meeting[i] in a.ranked
    ensures forall i :: 0 <= i < |a.ranked| && AtLeast(a.ranked[i].percentage, threshold) ==> a.ranked[i] in a.meeting
    ensures a.meeting == MeetingThreshold(a.ranked, threshold)
  {
    var ranked := SortDescending(GroupSum(es));
    RankingKeepsGrouping(es, GroupSum(es), ranked);
    SharesOfRanking(es, ranked, Sum(es));
    var shares := Shares(ranked, Sum(es));
    Analysis(shares, Sum(es), MeetingThreshold(shares, threshold))
  }

  /** `shares` is a ranked table of `es` against `whole`: one row per key,
      keys distinct, totals non-increasing, each total the sum of its key's
      amounts and each percentage taken of `whole`. */
  ghost predicate RankedSharesOf(es: seq<Entry>, shares: seq<Share>, whole: real) {
    && (forall i, j :: 0 <= i < j < |shares| ==>
          shares[i].key != shares[j].key && shares[i].total >= shares[j].total)
    && (forall i :: 0 <= i < |shares| ==>
          HasEntry(es, shares[i].key) && shares[i].total == SumFor(es, shares[i].key) &&
          shares[i].percentage == Percentage(shares[i].total, whole))
    && (forall key :: HasEntry(es, key) ==> exists i :: 0 <= i < |shares| && shares[i].key == key)
  }

  lemma SharesOfRanking(es: seq<Entry>, ranked: seq<Group>, whole: real)
    requires IsGrouping(es, ranked) && NonIncreasing(ranked)
    ensures RankedSharesOf(es, Shares(ranked, whole), whole)
  {
    var shares := Shares(ranked, whole);
    forall key | HasEntry(es, key)
      ensures exists i :: 0 <= i < |shares| && shares[i].key == key
    {
      var i :| 0 <= i < |ranked| && ranked[i].key == key;
      assert shares[i].key == key;
    }
  }

  /** The ranked groups behind an analysis: a ranking of the grouping
      whose totals add up to the whole. */
  lemma AnalysisTotals(es: seq<Entry>, threshold: real)
    ensures exists ranked ::
      && IsRanking(GroupSum(es), ranked) && Total(ranked) == Sum(es)
      && Analyse(es, threshold).ranked == Shares(ranked, Sum(es))
  {
    var groups := GroupSum(es);
    var ranked := SortDescending(groups);
    RankingKeepsGrouping(es, groups, ranked);
    GroupSumPreservesTotal(es);
  }

  /** With a non-zero total the percentages of an analysis add up to 100
      and its cumulative contribution ends at 100. */
  lemma AnalysisSumsToHundred(es: seq<Entry>, threshold: real)
    requires Sum(es) != 0.0
    ensures RunningSum(Percentages(Analyse(es, threshold).ranked)) == Finite(100.0)
    ensures CumulativeContribution(Analyse(es, threshold).ranked)[|Analyse(es, threshold).ranked| - 1]
      == Finite(100.0)
  {
    AnalysisTotals(es, threshold);
    var ranked: seq<Group> :| IsRanking(GroupSum(es), ranked) && Total(ranked) == Sum(es) &&
      Analyse(es, threshold).ranked == Shares(ranked, Sum(es));
    PercentagesSumToHundred(ranked);
    CumulativeEndsAtHundred(ranked);
  }

  /** With non-negative amounts and a positive total the cumulative
      contribution of an analysis never decreases. */
  lemma AnalysisCumulativeNonDecreasing(es: seq<Entry>, threshold: real, i: nat, j: nat)
    requires Sum(es) > 0.0 && forall k :: 0 <= k < |es| ==> es[k].amount >= 0.0
    requires i <= j < |Analyse(es, threshold).ranked|
    ensures CumulativeContribution(Analyse(es, threshold).ranked)[i].Finite?
    ensures CumulativeContribution(Analyse(es, threshold).ranked)[j].Finite?
    ensures CumulativeContribution(Analyse(es, threshold).ranked)[i].value <=
            CumulativeContribution(Analyse(es, threshold).ranked)[j].value
  {
    AnalysisTotals(es, threshold);
    var ranked: seq<Group> :| IsRanking(GroupSum(es), ranked) && Total(ranked) == Sum(es) &&
      Analyse(es, threshold).ranked == Shares(ranked, Sum(es));
    forall k | 0 <= k < |ranked|
      ensures ranked[k].total >= 0.0
    {
      assert ranked[k].total == Analyse(es, threshold).ranked[k].total;
      SumForNonNegative(es, ranked[k].key);
    }
    CumulativeNonDecreasing(ranked, Sum(es), i, j);
  }

  lemma {:induction false} SumForNonNegative(es: seq<Entry>, key: string)
    requires forall k :: 0 <= k < |es| ==> es[k].amount >= 0.0
    ensures SumFor(es, key) >= 0.0
  {
    if es != [] {
      SumForNonNegative(es[..|es| - 1], key);
    }
  }

  lemma {:induction false} SumNonNegative(es: seq<Entry>)
    requires forall k :: 0 <= k < |es| ==> es[k].amount >= 0.0
    ensures Sum(es) >= 0.0
  {
    if es != [] {
      SumNonNegative(es[..|es| - 1]);
    }
  }

  /** The rows of `cleaned` whose city is `city`, in table order. */
  function CityRows(cleaned: seq<Record>, city: string): (r: seq<Record>)
    ensures forall i :: 0 <= i < |r| ==> r[i].customerCity == city && r[i] in cleaned
    ensures forall i :: 0 <= i < |cleaned| && cleaned[i].customerCity == city ==> cleaned[i] in r
    ensures multiset(r) <= multiset(cleaned)
  {
    if cleaned == [] then []
    else
      var prefix, last := cleaned[..|cleaned| - 1], cleaned[|cleaned| - 1];
      assert cleaned == prefix + [last];
      CityRows(prefix, city) + (if last.customerCity == city then [last] else [])
  }

  /** `idx` places each row of `rows` in `cleaned`: in increasing
      positions, covering every row of `city`. */
  ghost predicate CityRowsAt(cleaned: seq<Record>, city: string, rows: seq<Record>, idx: seq<nat>) {
    && |idx| == |rows|
    && (forall k :: 0 <= k < |idx| ==> idx[k] < |cleaned| && cleaned[idx[k]] == rows[k])
    && (forall k, l :: 0 <= k < l < |idx| ==> idx[k] < idx[l])
    && (forall i :: 0 <= i < |cleaned| && cleaned[i].customerCity == city ==> i in idx)
  }

  /** Where each selected row sits in the table: the mask keeps every row
      of the city exactly once, in table order. */
  function CityRowsOrigins(cleaned: seq<Record>, city: string): (idx: seq<nat>)
    ensures CityRowsAt(cleaned, city, CityRows(cleaned, city), idx)
  {
    if cleaned == [] then []
    else
      var prefix := cleaned[..|cleaned| - 1];
      var rest := CityRowsOrigins(prefix, city);
      if cleaned[|cleaned| - 1].customerCity == city then
        assert CityRows(cleaned, city) == CityRows(prefix, city) + [cleaned[|cleaned| - 1]];
        CityRowKept(cleaned, city, CityRows(prefix, city), rest);
        rest + [|cleaned| - 1]
      else
        assert CityRows(cleaned, city) == CityRows(prefix, city);
        CityRowSkipped(cleaned, city, CityRows(prefix, city), rest);
        rest
  }

  lemma CityRowKept(cleaned: seq<Record>, city: string, rows: seq<Record>, rest: seq<nat>)
    requires cleaned != [] && cleaned[|cleaned| - 1].customerCity == city
    requires CityRowsAt(cleaned[..|cleaned| - 1], city, rows, rest)
    ensures CityRowsAt(cleaned, city, rows + [cleaned[|cleaned| - 1]], rest + [|cleaned| - 1])
  {
    var n := |cleaned| - 1;
    var idx := rest + [n];
    forall k | 0 <= k < |idx|
      ensures idx[k] < |cleaned| && cleaned[idx[k]] == (rows + [cleaned[n]])[k]
    {
      if k < |rest| {
        assert cleaned[..n][rest[k]] == cleaned[rest[k]];
      }
    }
    forall i | 0 <= i < |cleaned| && cleaned[i].customerCity == city
      ensures i in idx
    {
      if i < n {
        assert cleaned[..n][i] == cleaned[i];
        assert i in rest;
      } else {
        assert idx[|idx| - 1] == i;
      }
    }
  }

  lemma CityRowSkipped(cleaned: seq<Record>, city: string, rows: seq<Record>, rest: seq<nat>)
    requires cleaned != [] && cleaned[|cleaned| - 1].customerCity != city
    requires CityRowsAt(cleaned[..|cleaned| - 1], city, rows, rest)
    ensures CityRowsAt(cleaned, city, rows, rest)
  {
    var n := |cleaned| - 1;
    forall k | 0 <= k < |rest|
      ensures rest[k] < |cleaned| && cleaned[rest[k]] == rows[k]
    {
      assert cleaned[..n][rest[k]] == cleaned[rest[k]];
    }
    forall i | 0 <= i < |cleaned| && cleaned[i].customerCity == city
      ensures i in rest
    {
      assert cleaned[..n][i] == cleaned[i];
    }
  }

  /** The payments of the table's rows with both this city and this
      category, summed in table order. */
  function CityCategoryTotal(cleaned: seq<Record>, city: string, category: string): real {
    if cleaned == [] then 0.0
    else
      var last := cleaned[|cleaned| - 1];
      CityCategoryTotal(cleaned[..|cleaned| - 1], city, category) +
        (if last.customerCity == city && last.productCategoryName == category then last.paymentValue else 0.0)
  }

  /** A category's total in the city's product table is the sum of the
      payments of exactly the table's rows with that city and category. */
  lemma {:induction false} CategoryTotalInCity(cleaned: seq<Record>, city: string, category: string)
    ensures SumFor(CategoryEntries(CityRows(cleaned, city)), category) == CityCategoryTotal(cleaned, city, category)
  {
    if cleaned != [] {
      var prefix, last := cleaned[..|cleaned| - 1], cleaned[|cleaned| - 1];
      CategoryTotalInCity(prefix, city, category);
      var rows := CityRows(prefix, city);
      if last.customerCity == city {
        var es := CategoryEntries(rows + [last]);
        assert es[..|rows|] == CategoryEntries(rows);
      } else {
        assert CityRows(cleaned, city) == rows;
      }
    }
  }

  /** The city's payments, summed over its rows, are what the city table
      credits to that city. */
  lemma {:induction false} CityRowsTotal(cleaned: seq<Record>, city: string)
    ensures Sum(CategoryEntries(CityRows(cleaned, city))) == SumFor(CityEntries(cleaned), city)
  {
    if cleaned != [] {
      var prefix, last := cleaned[..|cleaned| - 1], cleaned[|cleaned| - 1];
      CityRowsTotal(prefix, city);
      assert CityEntries(cleaned)[..|cleaned| - 1] == CityEntries(prefix);
      var rows := CityRows(prefix, city);
      if last.customerCity == city {
        var es := CategoryEntries(rows + [last]);
        assert es[..|rows|] == CategoryEntries(rows);
      } else {
        assert CityRows(cleaned, city) == rows;
      }
    }
  }

  /** The product analysis of one city: nothing when the city has no rows,
      otherwise the ranked categories and those at or above the threshold. */
  datatype ProductReport = NoCityData | Products(analysis: Analysis)

  function AnalyseProducts(cleaned: seq<Record>, city: string, threshold: real): (p: ProductReport)
    ensures p.NoCityData? <==> forall i :: 0 <= i < |cleaned| ==> cleaned[i].customerCity != city
    ensures p.Products? ==> p.analysis.whole == SumFor(CityEntries(cleaned), city)
    ensures p.Products? ==> forall i :: 0 <= i < |p.analysis.ranked| ==>
      p.analysis.ranked[i].total == SumFor(CategoryEntries(CityRows(cleaned, city)), p.analysis.ranked[i].key)
    ensures p.Products? ==>
      RankedSharesOf(CategoryEntries(CityRows(cleaned, city)), p.analysis.ranked, p.analysis.whole)
    ensures p.Products? ==> forall i :: 0 <= i < |p.analysis.ranked| ==>
      p.analysis.ranked[i].percentage == Percentage(p.analysis.ranked[i].total, p.analysis.whole)
    ensures p.Products? ==> forall i :: 0 <= i < |cleaned| && cleaned[i].customerCity == city ==>
      exists j :: 0 <= j < |p.analysis.ranked| && p.analysis.ranked[j].key == cleaned[i].productCategoryName
    ensures p.Products? ==> forall i :: 0 <= i < |p.analysis.meeting| ==>
      AtLeast(p.analysis.meeting[i].percentage, threshold) && p.analysis.meeting[i] in p.analysis.ranked
    ensures p.Products? ==> forall i ::
      0 <= i < |p.analysis.ranked| && AtLeast(p.analysis.ranked[i].percentage, threshold) ==>
        p.analysis.ranked[i] in p.analysis.meeting
    ensures p.Products? ==> p.analysis.meeting == MeetingThreshold(p.analysis.ranked, threshold)
    ensures p.Products? ==> forall i :: 0 <= i < |p.analysis.ranked| ==>
      p.analysis.ranked[i].total == CityCategoryTotal(cleaned, city, p.analysis.ranked[i].key)
  {
    var rows := CityRows(cleaned, city);
    if rows == [] then
      NoCityData
    else
      CityRowsTotal(cleaned, city);
      assert rows[0] in cleaned;
      var a := Analyse(CategoryEntries(rows), threshold);
      CityCategoriesRanked(cleaned, city, a.ranked, a.whole);
      forall i | 0 <= i < |a.ranked|
        ensures a.ranked[i].total == CityCategoryTotal(cleaned, city, a.ranked[i].key)
      {
        CategoryTotalInCity(cleaned, city, a.ranked[i].key);
      }
      Products(a)
  }

  /** Every category sold in the city has a row in its ranked table. */
  lemma CityCategoriesRanked(cleaned: seq<Record>, city: string, ranked: seq<Share>, whole: real)
    requires RankedSharesOf(CategoryEntries(CityRows(cleaned, city)), ranked, whole)
    ensures forall i :: 0 <= i < |cleaned| && cleaned[i].customerCity == city ==>
      exists j :: 0 <= j < |ranked| && ranked[j].key == cleaned[i].productCategoryName
  {
    var rows := CityRows(cleaned, city);
    var es := CategoryEntries(rows);
    forall i | 0 <= i < |cleaned| && cleaned[i].customerCity == city
      ensures exists j :: 0 <= j < |ranked| && ranked[j].key == cleaned[i].productCategoryName
    {
      var k :| 0 <= k < |rows| && rows[k] == cleaned[i];
      assert es[k].key == cleaned[i].productCategoryName;
      assert HasEntry(es, cleaned[i].productCategoryName);
    }
  }

  /** Everything the dashboard computes from one table and two thresholds. */
  datatype Report = Report(
    cities: Analysis,
    cumulative: seq<Percent>,
    dominantCity: string,
    products: ProductReport)

  const EmptyTableError := "single positional indexer is out-of-bounds"

  /** The whole pipeline. With no cleaned rows the fallback `iloc[0]`
      raises, which is the failure. */
  function Run(raw: seq<RawRow>, medians: Imputation, cityThreshold: real, productThreshold: real)
    : (r: Result<Report, string>)
    ensures r.Failure? <==> CleanAndMerge(raw, medians) == []
    ensures r.Success? ==>
      exists i :: 0 <= i < |CleanAndMerge(raw, medians)| &&
        CleanAndMerge(raw, medians)[i].customerCity == r.value.dominantCity
    ensures r.Success? ==> r.value.products.Products?
    ensures r.Success? ==> r.value.cumulative == CumulativeContribution(r.value.cities.ranked)
    ensures r.Success? ==>
      r.value.products == AnalyseProducts(CleanAndMerge(raw, medians), r.value.dominantCity, productThreshold)
  {
    var cleaned := CleanAndMerge(raw, medians);
    var cities := Analyse(CityEntries(cleaned), cityThreshold);
    DominantCityHasRows(cleaned, cityThreshold);
    match DominantKey(cities.ranked, cityThreshold)
    case None =>
      Failure(EmptyTableError)
    case Some(city) =>
      Success(Report(cities, CumulativeContribution(cities.ranked), city,
        AnalyseProducts(cleaned, city, productThreshold)))
  }

  /** There is a dominant city exactly when the table is non-empty, and it
      always has rows, so the product analysis never finds no data. */
  lemma DominantCityHasRows(cleaned: seq<Record>, threshold: real)
    ensures var dominant := DominantKey(Analyse(CityEntries(cleaned), threshold).ranked, threshold);
      && (dominant.None? <==> cleaned == [])
      && (dominant.Some? ==>
            exists i :: 0 <= i < |cleaned| && cleaned[i].customerCity == dominant.value)
  {
    var es := CityEntries(cleaned);
    var a := Analyse(es, threshold);
    DominantKeyHasEntry(es, a.ranked, a.whole, threshold);
    var dominant := DominantKey(a.ranked, threshold);
    if dominant.Some? {
      var i :| 0 <= i < |es| && es[i].key == dominant.value;
      assert cleaned[i].customerCity == dominant.value;
    }
  }

  /** The dominant key of a ranked table exists exactly when there are
      entries, and it is the key of one of them. */
  lemma DominantKeyHasEntry(es: seq<Entry>, ranked: seq<Share>, whole: real, threshold: real)
    requires RankedSharesOf(es, ranked, whole)
    ensures DominantKey(ranked, threshold).None? <==> es == []
    ensures DominantKey(ranked, threshold).Some? ==> HasEntry(es, DominantKey(ranked, threshold).value)
  {
    if es != [] {
      assert HasEntry(es, es[0].key);
    }
    var dominant := DominantKey(ranked, threshold);
    if dominant.Some? {
      var k :| 0 <= k < |ranked| && ranked[k].key == dominant.value;
    }
  }

  /** The dominant city is the first ranked city at or above the city
      threshold, and the top-ranked city when none is. */
  lemma RunPicksDominantCity(raw: seq<RawRow>, medians: Imputation, cityThreshold: real, productThreshold: real)
    requires Run(raw, medians, cityThreshold, productThreshold).Success?
    ensures var report := Run(raw, medians, cityThreshold, productThreshold).value;
      && report.cities.ranked != []
      && (FirstMeeting(report.cities.ranked, cityThreshold).Some? ==>
            report.dominantCity == report.cities.ranked[FirstMeeting(report.cities.ranked, cityThreshold).value].key)
      && (FirstMeeting(report.cities.ranked, cityThreshold).None? ==>
            report.dominantCity == report.cities.ranked[0].key)
  {
  }

  /** With non-negative amounts the threshold never matters: the
      dominant key of an analysis is its top-ranked key. */
  lemma DominantIsTopOfAnalysis(es: seq<Entry>, threshold: real)
    requires es != [] && forall k :: 0 <= k < |es| ==> es[k].amount >= 0.0
    ensures Analyse(es, threshold).ranked != []
    ensures DominantKey(Analyse(es, threshold).ranked, threshold) == Some(Analyse(es, threshold).ranked[0].key)
  {
    SumNonNegative(es);
    AnalysisTotals(es, threshold);
    var ranked: seq<Group> :| IsRanking(GroupSum(es), ranked) && Total(ranked) == Sum(es) &&
      Analyse(es, threshold).ranked == Shares(ranked, Sum(es));
    assert HasEntry(es, es[0].key);
    DominantIsTop(ranked, Sum(es), threshold);
  }

  /** With non-negative payments the city threshold never matters: the
      dominant city of a non-empty table is its top-ranked city. */
  lemma DominantCityIsTopCity(cleaned: seq<Record>, cityThreshold: real)
    requires cleaned != [] && forall i :: 0 <= i < |cleaned| ==> cleaned[i].paymentValue >= 0.0
    ensures Analyse(CityEntries(cleaned), cityThreshold).ranked != []
    ensures DominantKey(Analyse(CityEntries(cleaned), cityThreshold).ranked, cityThreshold)
      == Some(Analyse(CityEntries(cleaned), cityThreshold).ranked[0].key)
  {
    DominantIsTopOfAnalysis(CityEntries(cleaned), cityThreshold);
  }

  /** What a successful run reports about the cities. */
  lemma RunReportsCities(raw: seq<RawRow>, medians: Imputation, cityThreshold: real, productThreshold: real)
    requires Run(raw, medians, cityThreshold, productThreshold).Success?
    ensures var report := Run(raw, medians, cityThreshold, productThreshold).value;
      && report.cities == Analyse(CityEntries(CleanAndMerge(raw, medians)), cityThreshold)
      && Some(report.dominantCity) == DominantKey(report.cities.ranked, cityThreshold)
      && report.cumulative == CumulativeContribution(report.cities.ranked)
      && report.products == AnalyseProducts(CleanAndMerge(raw, medians), report.dominantCity, productThreshold)
  {
  }

  /** With non-negative payments, a run's dominant city is its top-ranked
      city whatever the city threshold. */
  lemma RunDominantCityIsTop(raw: seq<RawRow>, medians: Imputation, cityThreshold: real, productThreshold: real)
    requires Run(raw, medians, cityThreshold, productThreshold).Success?
    requires forall i :: 0 <= i < |CleanAndMerge(raw, medians)| ==> CleanAndMerge(raw, medians)[i].paymentValue >= 0.0
    ensures var report := Run(raw, medians, cityThreshold, productThreshold).value;
      report.cities.ranked != [] && report.dominantCity == report.cities.ranked[0].key
  {
    RunReportsCities(raw, medians, cityThreshold, productThreshold);
    DominantCityIsTopCity(CleanAndMerge(raw, medians), cityThreshold);
  }
}

=== FILE: examples.dfy ===
/** Worked examples of the city and product rules. */
module Examples {
  import opened Wrappers
  import opened Aggregation
  import opened Contribution
  import opened Dashboard

  /** Three cities with sales 600, 300 and 100. */
  function ThreeCities(): seq<Entry> {
    [Entry("A", 600.0), Entry("B", 300.0), Entry("C", 100.0)]
  }

  lemma ThreeCitiesSums()
    ensures Sum(ThreeCities()) == 1000.0
    ensures forall key :: SumFor(ThreeCities(), key) == CitySales(key)
    ensures forall key :: HasEntry(ThreeCities(), key) <==> key == "A" || key == "B" || key == "C"
  {
    var e0 := [Entry("A", 600.0)];
    var e1 := e0 + [Entry("B", 300.0)];
    var es := e1 + [Entry("C", 100.0)];
    assert es == ThreeCities();
    assert es[..2] == e1 && e1[..1] == e0 && e0[..0] == [];
    forall key
      ensures SumFor(es, key) == CitySales(key)
    {
      assert SumFor(e0, key) == (if key == "A" then 600.0 else 0.0);
      assert SumFor(e1, key) == SumFor(e0, key) + (if key == "B" then 300.0 else 0.0);
    }
    forall key
      ensures HasEntry(es, key) <==> key == "A" || key == "B" || key == "C"
    {
      assert es[0].key == "A" && es[1].key == "B" && es[2].key == "C";
    }
  }

  /** The sales of each city in the example (0 for any other key). */
  function CitySales(key: string): real {
    if key == "A" then 600.0 else if key == "B" then 300.0 else if key == "C" then 100.0 else 0.0
  }

  /** The ranked city table is A, B, C with 60%, 30% and 10%. */
  lemma ThreeCitiesRanked(threshold: real)
    ensures Analyse(ThreeCities(), threshold).ranked == ThreeCityShares()
  {
    ThreeCitiesSums();
    ThreeRanked(ThreeCities(), Analyse(ThreeCities(), threshold).ranked);
  }

  /** Any ranked table of entries with the example's sums is the example's
      table. */
  lemma ThreeRanked(es: seq<Entry>, shares: seq<Share>)
    requires forall key :: SumFor(es, key) == CitySales(key)
    requires forall key :: HasEntry(es, key) <==> key == "A" || key == "B" || key == "C"
    requires RankedSharesOf(es, shares, 1000.0)
    ensures shares == ThreeCityShares()
  {
    assert HasEntry(es, "A") && HasEntry(es, "B") && HasEntry(es, "C");
    var ia :| 0 <= ia < |shares| && shares[ia].key == "A";
    var ib :| 0 <= ib < |shares| && shares[ib].key == "B";
    var ic :| 0 <= ic < |shares| && shares[ic].key == "C";
    ThreeShares(shares, ia, ib, ic);
  }

  /** The percentages of the example. */
  lemma ThreePercentages()
    ensures Percentage(600.0, 1000.0) == Finite(60.0)
    ensures Percentage(300.0, 1000.0) == Finite(30.0)
    ensures Percentage(100.0, 1000.0) == Finite(10.0)
  {
  }

  /** A ranked table with only the keys A, B and C, each with its example
      sales and percentage, is the example's table. */
  lemma ThreeShares(shares: seq<Share>, ia: nat, ib: nat, ic: nat)
    requires ia < |shares| && ib < |shares| && ic < |shares|
    requires shares[ia].key == "A" && shares[ib].key == "B" && shares[ic].key == "C"
    requires forall i :: 0 <= i < |shares| ==>
      (shares[i].key == "A" || shares[i].key == "B" || shares[i].key == "C") &&
      shares[i].total == CitySales(shares[i].key) &&
      shares[i].percentage == Percentage(shares[i].total, 1000.0)
    requires forall i, j :: 0 <= i < j < |shares| ==>
      shares[i].key != shares[j].key && shares[i].total >= shares[j].total
    ensures shares == ThreeCityShares()
  {
    ThreeInOrder(shares, ia, ib, ic);
    ThreePercentages();
  }

  /** In a table with distinct keys A, B and C only, ordered by
      non-increasing sales 600 > 300 > 100, the keys sit at 0, 1, 2. */
  lemma ThreeInOrder(ranked: seq<Share>, ia: nat, ib: nat, ic: nat)
    requires ia < |ranked| && ib < |ranked| && ic < |ranked|
    requires ranked[ia].key == "A" && ranked[ib].key == "B" && ranked[ic].key == "C"
    requires forall i :: 0 <= i < |ranked| ==>
      (ranked[i].key == "A" || ranked[i].key == "B" || ranked[i].key == "C") &&
      ranked[i].total == CitySales(ranked[i].key)
    requires forall i, j :: 0 <= i < j < |ranked| ==>
      ranked[i].key != ranked[j].key && ranked[i].total >= ranked[j].total
    ensures |ranked| == 3 && ia == 0 && ib == 1 && ic == 2
  {
    assert ranked[0].key == "A";
    assert ia == 0;
    assert ranked[1].key == "B";
    assert ib == 1;
    assert ranked[2].key == "C";
    assert ic == 2;
    DistinctKeysWithin(ranked, {"A", "B", "C"});
  }

  /** A table with distinct keys drawn from `keys` has at most `|keys|` rows. */
  lemma {:induction false} DistinctKeysWithin(ranked: seq<Share>, keys: set<string>)
    requires forall i :: 0 <= i < |ranked| ==> ranked[i].key in keys
    requires forall i, j :: 0 <= i < j < |ranked| ==> ranked[i].key != ranked[j].key
    ensures |ranked| <= |keys|
  {
    if ranked != [] {
      var last := ranked[|ranked| - 1];
      DistinctKeysWithin(ranked[..|ranked| - 1], keys - {last.key});
    }
  }

  /** The ranked city table of the example. */
  function ThreeCityShares(): seq<Share> {
    [Share("A", 600.0, Finite(60.0)), Share("B", 300.0, Finite(30.0)), Share("C", 100.0, Finite(10.0))]
  }

  lemma ThreeCitySharesFilter(ranked: seq<Share>, threshold: real)
    requires ranked == ThreeCityShares()
    ensures MeetingThreshold(ranked, threshold) ==
      (if threshold <= 10.0 then ranked
       else if threshold <= 30.0 then ranked[..2]
       else if threshold <= 60.0 then ranked[..1]
       else [])
  {
    var one, two := ranked[..1], ranked[..2];
    MeetingAppend(one, threshold);
    assert one[..0] == [];
    MeetingAppend(two, threshold);
    assert two[..1] == one;
    MeetingAppend(ranked, threshold);
    assert ranked[..2] == two;
  }

  /** Filtering one more share appends it when it meets the threshold. */
  lemma MeetingAppend(shares: seq<Share>, threshold: real)
    requires shares != []
    ensures MeetingThreshold(shares, threshold) ==
      MeetingThreshold(shares[..|shares| - 1], threshold) +
      (if AtLeast(shares[|shares| - 1].percentage, threshold) then [shares[|shares| - 1]] else [])
  {
  }

  /** At a 50% city threshold the 600-sales city qualifies and is dominant. */
  lemma CityExampleAtFifty()
    ensures MeetingThreshold(Analyse(ThreeCities(), 50.0).ranked, 50.0) == [Share("A", 600.0, Finite(60.0))]
    ensures DominantKey(Analyse(ThreeCities(), 50.0).ranked, 50.0) == Some("A")
  {
    ThreeCitiesRanked(50.0);
    ThreeCitiesAt(Analyse(ThreeCities(), 50.0).ranked, 50.0);
  }

  /** At a 70% city threshold no city qualifies; the fallback still picks
      the 600-sales city. */
  lemma CityExampleAtSeventy()
    ensures MeetingThreshold(Analyse(ThreeCities(), 70.0).ranked, 70.0) == []
    ensures DominantKey(Analyse(ThreeCities(), 70.0).ranked, 70.0) == Some("A")
  {
    ThreeCitiesRanked(70.0);
    ThreeCitiesAt(Analyse(ThreeCities(), 70.0).ranked, 70.0);
  }

  /** Whatever the threshold, the example's dominant city is A. */
  lemma ThreeCitiesAt(ranked: seq<Share>, threshold: real)
    requires ranked == ThreeCityShares()
    ensures MeetingThreshold(ranked, threshold) ==
      (if threshold <= 10.0 then ranked
       else if threshold <= 30.0 then ranked[..2]
       else if threshold <= 60.0 then ranked[..1]
       else [])
    ensures DominantKey(ranked, threshold) == Some("A")
  {
    ThreeCitySharesFilter(ranked, threshold);
    MeetingStartsAtFirst(ranked, threshold);
  }

  /** Two categories sold in the dominant city, for 80 and 20. */
  function TwoCategories(): seq<Entry> {
    [Entry("X", 80.0), Entry("Y", 20.0)]
  }

  function CategorySales(key: string): real {
    if key == "X" then 80.0 else if key == "Y" then 20.0 else 0.0
  }

  lemma TwoCategoriesSums()
    ensures Sum(TwoCategories()) == 100.0
    ensures forall key :: SumFor(TwoCategories(), key) == CategorySales(key)
    ensures forall key :: HasEntry(TwoCategories(), key) <==> key == "X" || key == "Y"
  {
    var e0 := [Entry("X", 80.0)];
    var es := e0 + [Entry("Y", 20.0)];
    assert es == TwoCategories();
    assert es[..1] == e0 && e0[..0] == [];
    forall key
      ensures SumFor(es, key) == CategorySales(key)
    {
      assert SumFor(e0, key) == (if key == "X" then 80.0 else 0.0);
    }
    forall key
      ensures HasEntry(es, key) <==> key == "X" || key == "Y"
    {
      assert es[0].key == "X" && es[1].key == "Y";
    }
  }

  /** The ranked category table is X (80%) then Y (20%). */
  lemma TwoCategoriesRanked(threshold: real)
    ensures Analyse(TwoCategories(), threshold).ranked ==
      [Share("X", 80.0, Finite(80.0)), Share("Y", 20.0, Finite(20.0))]
  {
    TwoCategoriesSums();
    TwoRanked(TwoCategories(), Analyse(TwoCategories(), threshold).ranked);
  }

  /** Any ranked table of entries with the example's sums is the example's
      table. */
  lemma TwoRanked(es: seq<Entry>, shares: seq<Share>)
    requires forall key :: SumFor(es, key) == CategorySales(key)
    requires forall key :: HasEntry(es, key) <==> key == "X" || key == "Y"
    requires RankedSharesOf(es, shares, 100.0)
    ensures shares == [Share("X", 80.0, Finite(80.0)), Share("Y", 20.0, Finite(20.0))]
  {
    assert HasEntry(es, "X") && HasEntry(es, "Y");
    var ix :| 0 <= ix < |shares| && shares[ix].key == "X";
    var iy :| 0 <= iy < |shares| && shares[iy].key == "Y";
    TwoShares(shares, ix, iy);
  }

  /** A ranked table with only the keys X and Y, each with its example
      sales and percentage, is the example's table. */
  lemma TwoShares(shares: seq<Share>, ix: nat, iy: nat)
    requires ix < |shares| && iy < |shares|
    requires shares[ix].key == "X" && shares[iy].key == "Y"
    requires forall i :: 0 <= i < |shares| ==>
      (shares[i].key == "X" || shares[i].key == "Y") &&
      shares[i].total == CategorySales(shares[i].key) &&
      shares[i].percentage == Percentage(shares[i].total, 100.0)
    requires forall i, j :: 0 <= i < j < |shares| ==>
      shares[i].key != shares[j].key && shares[i].total >= shares[j].total
    ensures shares == [Share("X", 80.0, Finite(80.0)), Share("Y", 20.0, Finite(20.0))]
  {
    TwoInOrder(shares, ix, iy);
    assert Percentage(80.0, 100.0) == Finite(80.0);
    assert Percentage(20.0, 100.0) == Finite(20.0);
  }

  /** At a 75% product threshold exactly the 80-sales category qualifies;
      at 85% none does, and there is no fallback. */
  lemma ProductExample()
    ensures Analyse(TwoCategories(), 75.0).meeting == [Share("X", 80.0, Finite(80.0))]
    ensures Analyse(TwoCategories(), 85.0).meeting == []
  {
    ProductMeetingAt(75.0);
    ProductMeetingAt(85.0);
  }

  lemma ProductMeetingAt(threshold: real)
    ensures Analyse(TwoCategories(), threshold).meeting ==
      (if threshold <= 20.0 then [Share("X", 80.0, Finite(80.0)), Share("Y", 20.0, Finite(20.0))]
       else if threshold <= 80.0 then [Share("X", 80.0, Finite(80.0))]
       else [])
  {
    TwoCategoriesRanked(threshold);
    TwoSharesFilter(Analyse(TwoCategories(), threshold).ranked, threshold);
  }

  lemma TwoSharesFilter(ranked: seq<Share>, threshold: real)
    requires ranked == [Share("X", 80.0, Finite(80.0)), Share("Y", 20.0, Finite(20.0))]
    ensures MeetingThreshold(ranked, threshold) ==
      (if threshold <= 20.0 then ranked else if threshold <= 80.0 then ranked[..1] else [])
  {
    var one := ranked[..1];
    MeetingAppend(one, threshold);
    assert one[..0] == [];
    MeetingAppend(ranked, threshold);
  }

  /** In a table with distinct keys X and Y only, ordered by
      non-increasing sales 80 > 20, the keys sit at 0 and 1. */
  lemma TwoInOrder(ranked: seq<Share>, ix: nat, iy: nat)
    requires ix < |ranked| && iy < |ranked|
    requires ranked[ix].key == "X" && ranked[iy].key == "Y"
    requires forall i :: 0 <= i < |ranked| ==>
      (ranked[i].key == "X" || ranked[i].key == "Y") && ranked[i].total == CategorySales(ranked[i].key)
    requires forall i, j :: 0 <= i < j < |ranked| ==>
      ranked[i].key != ranked[j].key && ranked[i].total >= ranked[j].total
    ensures |ranked| == 2 && ix == 0 && iy == 1
  {
    assert ranked[0].key == "X";
    assert ix == 0;
    assert ranked[1].key == "Y";
    DistinctKeysWithin(ranked, {"X", "Y"});
  }
}

=== FILE: rows.dfy ===
/** The rows the cleaning reads and writes, their de-duplication key, and
    pandas `drop_duplicates(subset=[order_id, product_id, customer_id])`
    with its default `keep='first'`. */
module Rows {
  import opened Wrappers

  /** One row of the merged input file, restricted to the columns the
      cleaning reads or keeps. `None` is a missing cell. */
  datatype RawRow = RawRow(
    orderId: Option<string>,
    customerId: Option<string>,
    productId: Option<string>,
    orderStatus: Option<string>,
    customerCity: Option<string>,
    customerState: Option<string>,
    price: Option<real>,
    freightValue: Option<real>,
    paymentValue: Option<real>,
    productCategoryName: Option<string>,
    sellerId: Option<string>,
    reviewScore: Option<real>,
    orderPurchaseTimestamp: Option<string>)

  /** One row of the cleaned table: the kept columns, with city, category
      and payment guaranteed present by their types. */
  datatype Record = Record(
    orderId: Option<string>,
    customerId: Option<string>,
    productId: Option<string>,
    customerCity: string,
    customerState: Option<string>,
    price: Option<real>,
    freightValue: Option<real>,
    paymentValue: real,
    productCategoryName: string,
    sellerId: Option<string>,
    reviewScore: Option<real>,
    orderPurchaseTimestamp: Option<string>)

  /** The median of each imputed numeric column over the delivered rows,
      `None` when that column has no value to take a median of. */
  datatype Imputation = Imputation(
    price: Option<real>,
    freightValue: Option<real>,
    paymentValue: Option<real>,
    reviewScore: Option<real>)

  /** The de-duplication key. Missing identifiers compare equal to each
      other, as pandas treats NaN in `drop_duplicates`. */
  datatype Key = Key(orderId: Option<string>, productId: Option<string>, customerId: Option<string>)

  function KeyOfRaw(row: RawRow): Key {
    Key(row.orderId, row.productId, row.customerId)
  }

  function KeyOf(r: Record): Key {
    Key(r.orderId, r.productId, r.customerId)
  }

  /** The keys occurring in `s`. */
  function KeysOf(s: seq<Record>): set<Key> {
    if s == [] then {}
    else KeysOf(s[..|s| - 1]) + {KeyOf(s[|s| - 1])}
  }

  /** Every row's key is among the keys. */
  lemma {:induction false} KeyPresent(s: seq<Record>, i: nat)
    requires i < |s|
    ensures KeyOf(s[i]) in KeysOf(s)
  {
    if i < |s| - 1 {
      KeyPresent(s[..|s| - 1], i);
    }
  }

  predicate UniqueKeys(s: seq<Record>) {
    forall i, j :: 0 <= i < j < |s| ==> KeyOf(s[i]) != KeyOf(s[j])
  }

  /** No earlier row of `s` has the key of row `i`. */
  predicate IsFirstOccurrence(s: seq<Record>, i: nat)
    requires i < |s|
  {
    forall j :: 0 <= j < i ==> KeyOf(s[j]) != KeyOf(s[i])
  }

  /** A key among the keys of `s` is the key of one of its rows. */
  lemma {:induction false} KeyWitness(s: seq<Record>, key: Key) returns (j: nat)
    requires key in KeysOf(s)
    ensures j < |s| && KeyOf(s[j]) == key
  {
    if KeyOf(s[|s| - 1]) == key {
      j := |s| - 1;
    } else {
      j := KeyWitness(s[..|s| - 1], key);
    }
  }

  /** The last row is a first occurrence exactly when its key is new. */
  lemma LastIsFirstOccurrence(s: seq<Record>)
    requires s != []
    ensures IsFirstOccurrence(s, |s| - 1) <==> KeyOf(s[|s| - 1]) !in KeysOf(s[..|s| - 1])
  {
    var prefix := s[..|s| - 1];
    if KeyOf(s[|s| - 1]) in KeysOf(prefix) {
      var j := KeyWitness(prefix, KeyOf(s[|s| - 1]));
      assert KeyOf(s[j]) == KeyOf(s[|s| - 1]);
    } else {
      forall j | 0 <= j < |prefix|
        ensures KeyOf(s[j]) != KeyOf(s[|s| - 1])
      {
        KeyPresent(prefix, j);
      }
    }
  }

  lemma KeysOfAppend(s: seq<Record>, x: Record)
    ensures KeysOf(s + [x]) == KeysOf(s) + {KeyOf(x)}
  {
    assert (s + [x])[..|s|] == s;
  }

  function DropDuplicates(s: seq<Record>): (r: seq<Record>)
    ensures UniqueKeys(r)
    ensures KeysOf(r) == KeysOf(s)
    ensures |r| <= |s|
  {
    if s == [] then []
    else
      var prefix, last := s[..|s| - 1], s[|s| - 1];
      var kept := DropDuplicates(prefix);
      assert s == prefix + [last];
      KeysOfAppend(prefix, last);
      if KeyOf(last) in KeysOf(prefix) then kept
      else
        KeysOfAppend(kept, last);
        NewKeyKeepsUnique(kept, last);
        kept + [last]
  }

  /** Appending a row with a new key keeps the keys unique. */
  lemma NewKeyKeepsUnique(s: seq<Record>, x: Record)
    requires UniqueKeys(s) && KeyOf(x) !in KeysOf(s)
    ensures UniqueKeys(s + [x])
  {
    forall i | 0 <= i < |s|
      ensures KeyOf(s[i]) != KeyOf(x)
    {
      KeyPresent(s, i);
    }
  }

  /** `idx` lists, in increasing order, exactly the positions of `s` that
      hold the first occurrence of their key, and `out` holds those rows. */
  ghost predicate FirstOccurrencesAt(s: seq<Record>, out: seq<Record>, idx: seq<nat>) {
    && |idx| == |out|
    && (forall k :: 0 <= k < |idx| ==> idx[k] < |s| && s[idx[k]] == out[k])
    && (forall k :: 0 <= k < |idx| ==> idx[k] < |s| && IsFirstOccurrence(s, idx[k]))
    && (forall k, l :: 0 <= k < l < |idx| ==> idx[k] < idx[l])
    && (forall i :: 0 <= i < |s| && IsFirstOccurrence(s, i) ==> i in idx)
  }

  /** Which rows `DropDuplicates` keeps: exactly the first occurrence of
      each key, in input order. */
  function DedupOrigins(s: seq<Record>): (idx: seq<nat>)
    ensures FirstOccurrencesAt(s, DropDuplicates(s), idx)
  {
    if s == [] then []
    else
      var rest := DedupOrigins(s[..|s| - 1]);
      DedupOriginsStep(s, rest);
      NextOrigins(s, rest)
  }

  /** The kept positions of `s`, given those of all but its last row. */
  function NextOrigins(s: seq<Record>, rest: seq<nat>): seq<nat>
    requires s != []
  {
    if KeyOf(s[|s| - 1]) in KeysOf(s[..|s| - 1]) then rest else rest + [|s| - 1]
  }

  lemma DedupOriginsStep(s: seq<Record>, rest: seq<nat>)
    requires s != []
    requires FirstOccurrencesAt(s[..|s| - 1], DropDuplicates(s[..|s| - 1]), rest)
    ensures FirstOccurrencesAt(s, DropDuplicates(s), NextOrigins(s, rest))
  {
    var prefix := s[..|s| - 1];
    var kept := DropDuplicates(prefix);
    LastIsFirstOccurrence(s);
    if KeyOf(s[|s| - 1]) in KeysOf(prefix) {
      assert DropDuplicates(s) == kept;
      DuplicateStep(s, kept, rest);
    } else {
      assert DropDuplicates(s) == kept + [s[|s| - 1]];
      NewKeyStep(s, kept, rest);
    }
  }

  /** A first occurrence in `s` before its last row is one in the prefix. */
  lemma FirstOccurrenceOfPrefix(s: seq<Record>, i: nat)
    requires i < |s| - 1
    ensures IsFirstOccurrence(s, i) <==> IsFirstOccurrence(s[..|s| - 1], i)
  {
  }

  lemma DuplicateStep(s: seq<Record>, kept: seq<Record>, rest: seq<nat>)
    requires s != [] && !IsFirstOccurrence(s, |s| - 1)
    requires FirstOccurrencesAt(s[..|s| - 1], kept, rest)
    ensures FirstOccurrencesAt(s, kept, rest)
  {
    var prefix := s[..|s| - 1];
    forall k | 0 <= k < |rest|
      ensures rest[k] < |s| && s[rest[k]] == kept[k] && IsFirstOccurrence(s, rest[k])
    {
      FirstOccurrenceOfPrefix(s, rest[k]);
    }
    forall i | 0 <= i < |s| && IsFirstOccurrence(s, i)
      ensures i in rest
    {
      if i < |prefix| {
        FirstOccurrenceOfPrefix(s, i);
      }
    }
  }

  lemma NewKeyStep(s: seq<Record>, kept: seq<Record>, rest: seq<nat>)
    requires s != [] && IsFirstOccurrence(s, |s| - 1)
    requires FirstOccurrencesAt(s[..|s| - 1], kept, rest)
    ensures FirstOccurrencesAt(s, kept + [s[|s| - 1]], rest + [|s| - 1])
  {
    var prefix := s[..|s| - 1];
    var idx := rest + [|s| - 1];
    var out := kept + [s[|s| - 1]];
    forall k | 0 <= k < |idx|
      ensures idx[k] < |s| && s[idx[k]] == out[k] && IsFirstOccurrence(s, idx[k])
    {
      if k < |rest| {
        assert idx[k] == rest[k] && out[k] == kept[k];
        FirstOccurrenceOfPrefix(s, rest[k]);
      }
    }
    forall k, l | 0 <= k < l < |idx|
      ensures idx[k] < idx[l]
    {
      if l < |rest| {
        assert idx[k] == rest[k] && idx[l] == rest[l];
      } else {
        assert idx[k] == rest[k];
      }
    }
    forall i | 0 <= i < |s| && IsFirstOccurrence(s, i)
      ensures i in idx
    {
      if i < |prefix| {
        FirstOccurrenceOfPrefix(s, i);
      }
    }
  }

  /** A table whose keys are already unique is left unchanged. */
  lemma {:induction false} DropDuplicatesOfUnique(s: seq<Record>)
    requires UniqueKeys(s)
    ensures DropDuplicates(s) == s
  {
    if s != [] {
      var prefix, last := s[..|s| - 1], s[|s| - 1];
      assert UniqueKeys(prefix);
      DropDuplicatesOfUnique(prefix);
      assert IsFirstOccurrence(s, |s| - 1);
      LastIsFirstOccurrence(s);
      assert s == prefix + [last];
    }
  }

  /** De-duplicating twice is the same as de-duplicating once. */
  lemma DropDuplicatesIdempotent(s: seq<Record>)
    ensures DropDuplicates(DropDuplicates(s)) == DropDuplicates(s)
  {
    DropDuplicatesOfUnique(DropDuplicates(s));
  }

}

=== FILE: text.dfy ===
/** Text normalisation applied to the city and product-category columns:
    lower-casing, Python's `str.title()`, underscore replacement and the two
    hard-coded city spellings.

    Cased letters are the ASCII letters and the Latin-1 letters
    U+00C0..U+00DE / U+00E0..U+00FE (without the multiplication and division
    signs), whose upper and lower forms differ by 0x20. Every other character
    is treated as uncased and is never changed. */
module Text {

  predicate IsUpper(c: char) {
    ('A' <= c <= 'Z') || ('\U{00C0}' <= c <= '\U{00DE}' && c != '\U{00D7}')
  }

  predicate IsLower(c: char) {
    ('a' <= c <= 'z') || ('\U{00E0}' <= c <= '\U{00FE}' && c != '\U{00F7}')
  }

  predicate IsCased(c: char) {
    IsUpper(c) || IsLower(c)
  }

  function ToUpper(c: char): (r: char)
    ensures IsCased(r) == IsCased(c)
    ensures IsCased(c) ==> IsUpper(r)
    ensures IsUpper(c) ==> r == c
    ensures IsLower(c) ==> r as int == c as int - 32
    ensures !IsCased(c) ==> r == c
  {
    if IsLower(c) then (c as int - 32) as char else c
  }

  function ToLower(c: char): (r: char)
    ensures IsCased(r) == IsCased(c)
    ensures IsCased(c) ==> IsLower(r)
    ensures IsLower(c) ==> r == c
    ensures IsUpper(c) ==> r as int == c as int + 32
    ensures !IsCased(c) ==> r == c
  {
    if IsUpper(c) then (c as int + 32) as char else c
  }

  /** Python's `str.lower()`. */
  function Lower(s: string): (r: string)
    ensures |r| == |s|
    ensures forall i :: 0 <= i < |s| ==> r[i] == ToLower(s[i])
    ensures forall i :: 0 <= i < |s| ==> IsCased(r[i]) == IsCased(s[i])
  {
    seq(|s|, i requires 0 <= i < |s| => ToLower(s[i]))
  }

  /** One character of `str.title()`: lower-case inside a word, upper-case
      at the start of one. */
  function TitleChar(insideWord: bool, c: char): char {
    if insideWord then ToLower(c) else ToUpper(c)
  }

  function TitleFrom(insideWord: bool, s: string): string
    decreases |s|
  {
    if s == [] then []
    else [TitleChar(insideWord, s[0])] + TitleFrom(IsCased(s[0]), s[1..])
  }

  lemma {:induction false} TitleFromPointwise(insideWord: bool, s: string)
    ensures |TitleFrom(insideWord, s)| == |s|
    ensures forall i :: 0 <= i < |s| ==>
      TitleFrom(insideWord, s)[i] == TitleChar(if i == 0 then insideWord else IsCased(s[i - 1]), s[i])
    decreases |s|
  {
    if s != [] {
      TitleFromPointwise(IsCased(s[0]), s[1..]);
    }
  }

  /** Python's `str.title()`: a cased character that follows a cased
      character is lower-cased, any other cased character is upper-cased,
      and uncased characters are kept. */
  function TitleCase(s: string): (r: string)
    ensures |r| == |s|
    ensures forall i :: 0 <= i < |s| ==>
      r[i] == (if i > 0 && IsCased(s[i - 1]) then ToLower(s[i]) else ToUpper(s[i]))
  {
    TitleFromPointwise(false, s);
    TitleFrom(false, s)
  }

  lemma CaseFolding(c: char)
    ensures ToUpper(ToUpper(c)) == ToUpper(c) && ToLower(ToLower(c)) == ToLower(c)
    ensures ToUpper(ToLower(c)) == ToUpper(c) && ToLower(ToUpper(c)) == ToLower(c)
  {
  }

  /** Title-casing an already title-cased string changes nothing. */
  lemma TitleCaseIdempotent(s: string)
    ensures TitleCase(TitleCase(s)) == TitleCase(s)
  {
    var t := TitleCase(s);
    forall i | 0 <= i < |s|
      ensures TitleCase(t)[i] == t[i]
    {
      CaseFolding(s[i]);
      if i > 0 {
        var j := i - 1;
        assert t[j] == (if j > 0 && IsCased(s[j - 1]) then ToLower(s[j]) else ToUpper(s[j]));
      }
    }
  }

  /** `str.title()` ignores the case of its input, so the `str.lower()` in
      front of it in the city pipeline does not change the outcome. */
  lemma TitleCaseOfLower(s: string)
    ensures TitleCase(Lower(s)) == TitleCase(s)
  {
    var l := Lower(s);
    forall i | 0 <= i < |s|
      ensures TitleCase(l)[i] == TitleCase(s)[i]
    {
      CaseFolding(s[i]);
      if i > 0 {
        assert IsCased(l[i - 1]) == IsCased(s[i - 1]);
      }
    }
  }

  /** Whether `s` from position `k` on already has the shape `str.title()`
      produces; decided character by character so that it can be evaluated
      on literal strings. */
  predicate TitledFrom(s: string, k: nat)
    decreases |s| - k
  {
    k >= |s| || (s[k] == TitleChar(k > 0 && IsCased(s[k - 1]), s[k]) && TitledFrom(s, k + 1))
  }

  lemma {:induction false} TitledFromPointwise(s: string, k: nat)
    requires TitledFrom(s, k)
    ensures forall i :: k <= i < |s| ==> s[i] == TitleChar(i > 0 && IsCased(s[i - 1]), s[i])
    decreases |s| - k
  {
    if k < |s| {
      TitledFromPointwise(s, k + 1);
    }
  }

  /** A string of title shape is the title-casing of every string that
      differs from it only in letter case. */
  lemma TitleCaseOfTitled(s: string, t: string)
    requires TitledFrom(t, 0)
    requires Lower(s) == Lower(t)
    ensures TitleCase(s) == t
  {
    TitledFromPointwise(t, 0);
    forall i | 0 <= i < |t|
      ensures TitleCase(t)[i] == t[i]
    {
      assert t[i] == TitleChar(i > 0 && IsCased(t[i - 1]), t[i]);
    }
    TitleCaseOfLower(s);
    TitleCaseOfLower(t);
  }

  /** A character that follows an uncased one in title-cased text is never
      lower-case. */
  lemma WordStartIsNotLower(s: string, i: nat)
    requires 0 < i < |s|
    ensures !IsCased(TitleCase(s)[i - 1]) ==> !IsLower(TitleCase(s)[i])
  {
    var t := TitleCase(s);
    var j := i - 1;
    assert t[j] == (if j > 0 && IsCased(s[j - 1]) then ToLower(s[j]) else ToUpper(s[j]));
  }

  const SaoPauloTitled := "Sao Paulo"
  const SaoPaulo := "S\U{00E3}o Paulo"
  const RioTitled := "Rio De Janeiro"
  const Rio := "Rio de Janeiro"

  /** The `customer_city` rewrite: lower-case, title-case, then the two
      whole-value corrections (pandas `Series.replace` with a string
      matches complete cells only). */
  function NormalizeCity(city: string): (r: string)
    ensures |r| == |city|
    ensures r == SaoPaulo <==>
      TitleCase(Lower(city)) == SaoPauloTitled || TitleCase(Lower(city)) == SaoPaulo
    ensures r == Rio <==> TitleCase(Lower(city)) == RioTitled
    ensures r != SaoPauloTitled && r != RioTitled
    ensures r != SaoPaulo && r != Rio ==> r == TitleCase(Lower(city))
  {
    var titled := TitleCase(Lower(city));
    assert titled != Rio by {
      if |titled| == |Rio| {
        WordStartIsNotLower(Lower(city), 4);
      }
    }
    if titled == SaoPauloTitled then SaoPaulo
    else if titled == RioTitled then Rio
    else titled
  }

  /** Normalising a normalised city name changes nothing. */
  lemma NormalizeCityIdempotent(city: string)
    ensures NormalizeCity(NormalizeCity(city)) == NormalizeCity(city)
  {
    var r := NormalizeCity(city);
    if r == SaoPaulo {
      SaoPauloStaysCorrected();
    } else if r == Rio {
      RioStaysCorrected(city);
    } else {
      TitleCaseIdempotent(Lower(city));
      TitleCaseOfLower(r);
    }
  }

  lemma SaoPauloStaysCorrected()
    ensures NormalizeCity(SaoPaulo) == SaoPaulo
  {
    SaoPauloIsTitled();
    TitleCaseOfTitled(Lower(SaoPaulo), SaoPaulo);
    assert Lower(Lower(SaoPaulo)) == Lower(SaoPaulo);
  }

  lemma SaoPauloIsTitled()
    ensures TitledFrom(SaoPaulo, 0)
  {
  }

  /** The corrected Rio spelling lower-cases like the title-cased one, which
      title-casing leaves alone because it is itself a title-casing result. */
  lemma RioStaysCorrected(city: string)
    requires TitleCase(Lower(city)) == RioTitled
    ensures NormalizeCity(Rio) == Rio
  {
    RioLowersLikeTitled();
    TitleCaseIdempotent(Lower(city));
    TitleCaseOfLower(RioTitled);
  }

  lemma RioLowersLikeTitled()
    ensures Lower(Rio) == Lower(RioTitled)
  {
  }

  /** The spelling of the input does not matter: every capitalisation of a
      city name normalises to the same value. */
  lemma NormalizeCityIgnoresCase(city: string)
    ensures NormalizeCity(Lower(city)) == NormalizeCity(city)
  {
    TitleCaseOfLower(Lower(city));
    TitleCaseOfLower(city);
  }

  /** `str.replace('_', ' ')`. */
  function ReplaceUnderscores(s: string): (r: string)
    ensures |r| == |s|
    ensures forall i :: 0 <= i < |s| ==> r[i] != '_'
    ensures forall i :: 0 <= i < |s| && s[i] == '_' ==> r[i] == ' '
    ensures forall i :: 0 <= i < |s| && s[i] != '_' ==> r[i] == s[i]
  {
    seq(|s|, i requires 0 <= i < |s| => if s[i] == '_' then ' ' else s[i])
  }

  const UnknownCategory := "Unknown Category"

  /** The `product_category_name` rewrite: underscores become spaces, then
      the value is title-cased. */
  function NormalizeCategory(category: string): (r: string)
    ensures r == TitleCase(ReplaceUnderscores(category))
    ensures |r| == |category|
    ensures forall i :: 0 <= i < |r| ==> r[i] != '_'
    ensures forall i :: 0 <= i < |category| && category[i] == '_' ==> r[i] == ' '
    ensures forall i :: 0 <= i < |category| && category[i] != '_' && !IsCased(category[i]) ==>
      r[i] == category[i]
    ensures forall i :: 0 <= i < |category| && IsCased(category[i]) ==>
      IsCased(r[i]) && ToLower(r[i]) == ToLower(category[i])
  {
    var spaced := ReplaceUnderscores(category);
    var r := TitleCase(spaced);
    assert forall i :: 0 <= i < |category| ==>
      (r[i] == ToLower(spaced[i]) || r[i] == ToUpper(spaced[i])) by {
      forall i | 0 <= i < |category|
        ensures r[i] == ToLower(spaced[i]) || r[i] == ToUpper(spaced[i])
      {
        assert r[i] == (if i > 0 && IsCased(spaced[i - 1]) then ToLower(spaced[i]) else ToUpper(spaced[i]));
      }
    }
    assert forall i :: 0 <= i < |category| && IsCased(category[i]) ==>
      ToLower(r[i]) == ToLower(category[i]) by {
      forall i | 0 <= i < |category| && IsCased(category[i])
        ensures ToLower(r[i]) == ToLower(category[i])
      {
        CaseFolding(category[i]);
      }
    }
    r
  }

  /** Normalising a normalised category changes nothing. */
  lemma NormalizeCategoryIdempotent(category: string)
    ensures NormalizeCategory(NormalizeCategory(category)) == NormalizeCategory(category)
  {
    var r := NormalizeCategory(category);
    assert ReplaceUnderscores(r) == r;
    TitleCaseIdempotent(ReplaceUnderscores(category));
  }

  /** Worked examples of the two normalisation rules. */
  lemma CityExample()
    ensures NormalizeCity("sao paulo") == SaoPaulo
  {
    SaoPauloTitledShape();
    SaoPauloCaseless();
    TitleCaseOfTitled(Lower("sao paulo"), SaoPauloTitled);
  }

  lemma SaoPauloTitledShape()
    ensures TitledFrom(SaoPauloTitled, 0)
  {
  }

  lemma SaoPauloCaseless()
    ensures Lower(Lower("sao paulo")) == Lower(SaoPauloTitled)
  {
  }

  lemma CategoryExample()
    ensures NormalizeCategory("home_appliances") == "Home Appliances"
  {
    UnderscoreExample();
    HomeAppliancesIsTitled();
    HomeAppliancesCaseless();
    TitleCaseOfTitled("home appliances", "Home Appliances");
  }

  lemma UnderscoreExample()
    ensures ReplaceUnderscores("home_appliances") == "home appliances"
  {
  }

  lemma HomeAppliancesIsTitled()
    ensures TitledFrom("Home Appliances", 0)
  {
    HomeAppliancesTail();
  }
  lemma HomeAppliancesTail()
    ensures TitledFrom("Home Appliances", 7)
  {
  }

  lemma HomeAppliancesCaseless()
    ensures Lower("home appliances") == Lower("Home Appliances")
  {
  }
}

=== FILE: wrappers.dfy ===
/** Wrappers used across the model: `Option` stands for a
    table cell that may be missing (pandas NaN/None), `Result` for a run of
    the dashboard that either renders or stops with an error. */
module Wrappers {

  datatype Option<+T> = None | Some(value: T)

  datatype Result<+R, +E> = Success(value: R) | Failure(error: E)
}
